=== FILE: README.md ===
# Mythforge backend: a Dafny model of its request-handling core

This project models the decision logic of the Mythforge Express backend and
proves what that logic promises. The backend turns a user's life event into a
short Greek myth: a text generator chooses a deity and writes a narrative.
It also manages accounts and keeps a per-user list of life events. Four
pieces are modelled:

- **Myth synthesis** (`createMyth`, `getMyths`, `getMythById`).
  - Intake validation and the default title.
  - The two regular expressions that read the generator's reply, with
    JavaScript's leftmost and backtracking semantics.
  - The closed list of twenty deities, with the coercion of anything else to
    "Zeus".
  - The fixed apology narrative used when the generator fails.
  - Owner-scoped reads.
- **Authentication middleware** (`verifyToken`, `requireRole`).
  - Parsing of the `Authorization: Bearer …` header.
  - The exact-equality role gate.
- **Account lifecycle**, as transitions on a users table.
  - From the auth controller: registration, email verification and login.
  - From the auth routes: `/me`, `/all-users` and `/toggle-active/:id`.
- **Life-event intake** (`createLifeEvent`, `getLifeEventsByUser`).
  - Field defaults, trimming and the order of the checks.
  - Owner-scoped listing ordered by event date and then creation time.

## Modelling approach

- Every handler is a pure function. It maps the database state and the
  request to a response and the next database state.
- Tables are maps from ids to rows. Module `Tables` holds the id and clock
  types they share and the projection of listed rows onto selected columns.
- `ORDER BY` is an ordering proved about the listing: non-increasing sort keys,
  each row exactly once, and every qualifying row present.
- The foreign calls are parameters:
  - the generator: a function from the prompt to a reply or a failure;
  - `jwt.verify`: a partial function from a token to a payload;
  - `jwt.sign`: a function from a payload to a token;
  - `bcrypt.compare`: a predicate;
  - date parsing: a partial function to a calendar day, plus today's date;
  - the bcrypt hash, the random verification token, the id the database
    assigns, `NOW()`, whether the mail was sent, and whether an insert
    succeeded: plain values.
- JavaScript semantics the handlers rely on are written out in module `Js`:
  - which characters `trim()` strips and `\s` matches;
  - truthiness of request values;
  - `startsWith`;
  - `split` on a one-character separator.
- Module `OracleReply` gives the two regular expressions an independent
  declarative meaning: what a match is, and which match is preferred (leftmost
  start, then the longest `\s*`, then the longest capture). It then proves
  that the backtracking search returns exactly that match. As a consequence,
  the reply `Name of Greek/Goddess: "Athena"` captures a single space,
  because `\s*` gives the space back to `[^"\n]+`. The stored title is then
  "Zeus".

Facts about the code that the model keeps, and that a reader might not
expect:

- `createMyth` calls the generator once. A reply it cannot read is not sent
  back for repair.
- Nothing checks that the narrative mentions the chosen deity.
- A myth row holds no reference to a life event.
- The fallback deity is the literal "Zeus"
  (`controllers/mythController.js:89`), not looked up from the list.
- When the generator fails, the stored title is the request title (or
  "A Mythic Tale"), which need not be a listed deity.
- A reply that is only white space is stored with an empty narrative.
- The `/all-users` route is commented "admin OR superadmin", but the role
  check is exact equality, so "superadmin" is refused with 403.

## Model

| member | source | states |
|---|---|---|
| Js.Trim | controllers/mythController.js:77 | `trim()` removes exactly the leading and trailing ECMAScript white space: the result is the slice between them, the removed parts are all white space, the kept ends are not, and the result is empty exactly when the input is all white space |
| Js.Split | middleware/authMiddleware.js:14 | `split(" ")` yields at least one piece, no piece contains the separator, and the first piece is the text before the first separator |
| Js.SplitJoin | middleware/authMiddleware.js:14 | splitting a join of separator-free pieces gives back the pieces |
| Js.JoinSplit | middleware/authMiddleware.js:14 | joining the pieces of a split with the separator gives back the original text |
| Js.SplitAtSeparator | middleware/authMiddleware.js:14 | a separator-free prefix followed by the separator becomes the first piece, and the rest splits on its own |
| Ordering.ByRankDesc | controllers/mythController.js:128-133 | an `ORDER BY … DESC` listing: every selected key exactly once, nothing else, and ranks non-increasing along the list |
| OracleReply.Exec | controllers/mythController.js:80-81 | `String.prototype.match` for a pattern `Header\s*(Class+)` under the `i` flag: the result is a match, it is preferred over every other match (leftmost, then longest white space, then longest capture), and there is no result exactly when the text has no match |
| OracleReply.NameCaptureShape | controllers/mythController.js:80 | the deity capture is non-empty and holds no `"` and no newline |
| OracleReply.NarrativeRunsToEnd | controllers/mythController.js:81 | the narrative capture runs to the end of the reply |
| OracleReply.DeityOf | controllers/mythController.js:83 | without a deity header the candidate deity is the default title; with one it is the trimmed capture, which holds no quote and no line feed and has no white space at either end |
| OracleReply.NarrativeOf | controllers/mythController.js:84 | without a narrative header the narrative is the whole trimmed reply; with one it is exactly the trimmed text from the start of the capture to the end of the reply |
| OracleReply.NarrativeNonEmpty | controllers/mythController.js:77-84 | a reply that is not all white space yields a non-empty narrative |
| OracleReply.QuotedNameCapturesSpace | controllers/mythController.js:80-83 | for `Name of Greek/Goddess: "Athena"` the match captures one space, and the trimmed deity is empty |
| OracleReply.ExecFindsFirstHeader | controllers/mythController.js:80-81 | a match at the first occurrence of the header, with maximal white space and a capture to the end of the text, is the one `match` returns |
| OracleReply.CanonicalDeityCaptured | controllers/mythController.js:80 | in a reply laid out as the prompt asks, with deity `Demeter`, the deity pattern captures exactly `Demeter` |
| OracleReply.CanonicalNarrativeCaptured | controllers/mythController.js:81 | in the same reply the narrative pattern matches at the `Narrative:` line and captures the quoted story, quote marks included |
| OracleReply.CanonicalFields | controllers/mythController.js:77-84 | for that reply the deity field is `Demeter` and the narrative field is `"Once"` with its quote marks |
| MythController.UserPrompt | controllers/mythController.js:66 | the user prompt is the prefix `Life Event: "`, then the event text verbatim, then one closing quote, and nothing else |
| MythController.ValidDeity | controllers/mythController.js:87-90 | the deity kept is always a listed one: the candidate when listed, "Zeus" otherwise |
| MythController.Finalize | controllers/mythController.js:57-99 | a failed generation stores the default title with the apology narrative; a reply always stores a listed deity; how a reply's title and narrative are chosen is stated by `ReplyTitle` and `ReplyNarrative` |
| MythController.CreateMyth | controllers/mythController.js:46-121 | 400 exactly for a missing or blank event, with no generator call and no insert; a non-string event crashes before the try block; otherwise exactly one prompt is sent; the table changes only on 201, by the one new row, whose owner is the caller's id as the token gives it (possibly none), and whose title and narrative are what `Finalize` makes of the request title (or the default title) and the generator's answer to that prompt |
| MythController.MythCreatedExactly | controllers/mythController.js:50-114 | 201 exactly when the event is a non-blank string and the insert succeeds, whatever the generator does |
| MythController.TitleAllowedAfterReply | controllers/mythController.js:83-93 | a valid event with a generator reply is created with a title from the list of twenty deities |
| MythController.FallbackAfterFailure | controllers/mythController.js:95-114 | a failed generation still answers 201 with the default title and the apology narrative |
| MythController.NarrativeNonEmptyAfterReply | controllers/mythController.js:77-93 | a non-blank reply stores a non-empty narrative |
| MythController.ReplyTitle | controllers/mythController.js:83-92 | the title is the trimmed capture if listed; with no deity header it is the default title if listed; in every other case it is "Zeus" |
| MythController.ReplyNarrative | controllers/mythController.js:77-84 | the narrative is the trimmed text from the start of the narrative capture to the end of the trimmed reply; with no narrative header it is the whole trimmed reply |
| MythController.QuotedDeityBecomesFallback | controllers/mythController.js:80-92 | a reply naming `"Athena"` in quotes stores "Zeus" |
| MythController.CanonicalReplyStored | controllers/mythController.js:77-93 | a reply in the requested layout stores the named deity as the title and the quoted story, quote marks kept, as the narrative |
| MythController.GetMyths | controllers/mythController.js:124-145 | the listing holds exactly the myths whose owner equals the caller's id, each once, newest first; a caller without an id matches no row |
| MythController.GetMythById | controllers/mythController.js:148-173 | a malformed id fails; an id not owned by the caller, or any id when the token carries no user id, gives 404; otherwise the caller's row is returned |
| MythController.ListedIffFound | controllers/mythController.js:128-162 | a myth is in the caller's listing exactly when reading it by id succeeds |
| MythController.CreatedMythVisibleToOwnerOnly | controllers/mythController.js:153-162 | a created myth can be read by its owner and gives 404 to every other caller; one created without a user id can be read by nobody |
| MythController.NoUserSeesNothing | controllers/mythController.js:124-173 | a token without `user_id` lists no myths and reads none |
| AuthMiddleware.BearerToken | middleware/authMiddleware.js:14 | the token is the text after `"Bearer "` up to the next space or the end |
| AuthMiddleware.BearerRoundTrip | middleware/authMiddleware.js:10-14 | a token without spaces sent after `"Bearer "` passes the prefix check and is read back intact |
| AuthMiddleware.VerifyToken | middleware/authMiddleware.js:7-24 | 401 without consulting the verifier exactly when the header is missing, empty or lacks the exact `"Bearer "` prefix; the request proceeds exactly when the verifier accepts the token, with the decoded payload as `req.user` |
| AuthMiddleware.RequireRole | middleware/authMiddleware.js:29-40 | exactly one of 401 (no user), 403 (role differs) or proceed (role equal) |
| AuthMiddleware.DoubleSpaceGivesEmptyToken | middleware/authMiddleware.js:14 | `"Bearer  x"` yields the empty token |
| AuthMiddleware.LowerCaseSchemeRejected | middleware/authMiddleware.js:10-12 | a lower-case `bearer` scheme is refused with 401 |
| AuthMiddleware.SuperadminIsNotAdmin | middleware/authMiddleware.js:35-37 | role "superadmin" is forbidden where "admin" is required |
| AuthController.Register | controllers/authController.js:26-89 | 400 exactly when a field is missing or empty; 400 for a registered email exactly when all fields are present and the email is taken, with the table unchanged and no mail; the table changes only by inserting the one new row; mail goes to the new email with the new token, and is sent exactly when the row was inserted; 201 exactly when the row was inserted and the mail was sent |
| AuthController.NewAccountUnverified | controllers/authController.js:45-49 | the inserted row has role "user", is unverified, holds the mailed token, and leaves every earlier row unchanged |
| AuthController.MailFailureKeepsRow | controllers/authController.js:45-88 | a mail failure after the insert answers 500, but the new unverified row stays |
| AuthController.RegisterKeepsWellFormed | controllers/authController.js:34-49 | registration keeps emails and usernames unique |
| AuthController.FindByEmail | controllers/authController.js:101-106 | the lookup returns the row with that email, and finds none exactly when the email is unused |
| AuthController.Login | controllers/authController.js:94-150 | the checks run in order (missing field 400, unknown email 404, inactive 403, unverified 403, wrong password 401); success signs exactly the user id and role and returns no hash |
| AuthController.VerifyEmail | controllers/authController.js:155-178 | 400 exactly when no row holds the token; every row holding it becomes verified with its token cleared; every other row is unchanged |
| AuthController.TokenSingleUse | controllers/authController.js:159-168 | a token some row holds is accepted once and refused the second time |
| AuthController.VerifyEmailKeepsWellFormed | controllers/authController.js:159-163 | verification keeps emails and usernames unique |
| AuthController.RegisterVerifyLogin | controllers/authController.js:26-150 | register, verify, then log in with the same password signs a token for exactly the new id and role "user" when accounts start active, and answers "inactive" otherwise |
| AuthRoutes.AdminGate | routes/authRoutes.js:53-56 | an admin route is reached exactly with a verified token whose role is exactly "admin"; a verified token with another role gets 403, and everything else gets 401 |
| AuthRoutes.GetMe | routes/authRoutes.js:32-47 | 401 when the token is refused; 404 exactly when no row has the token's user id; otherwise that row without hash or token |
| AuthRoutes.MeAfterLogin | routes/authRoutes.js:32-47 | the token a successful login returns, sent to `/me`, yields the row of the user who logged in, given a signer whose tokens have no spaces and decode to what was signed |
| AuthRoutes.IdsAscending | routes/authRoutes.js:60 | `ORDER BY user_id ASC`: every user id exactly once, strictly ascending |
| AuthRoutes.UserListing | routes/authRoutes.js:59-63 | every user exactly once, by ascending id, as rows without hash or token |
| AuthRoutes.AllUsers | routes/authRoutes.js:53-69 | the listing is returned exactly when the admin gate passes, and otherwise the gate's status |
| AuthRoutes.Toggle | routes/authRoutes.js:79-84 | flips `is_active` of the given user and leaves every other user and every other field unchanged |
| AuthRoutes.ToggleTwice | routes/authRoutes.js:81 | toggling the same user twice restores the table |
| AuthRoutes.ToggleKeepsWellFormed | routes/authRoutes.js:79-84 | toggling keeps emails and usernames unique |
| AuthRoutes.ToggleActive | routes/authRoutes.js:71-97 | behind the admin gate; a malformed id fails with no change; an unknown id answers 200 with no user; otherwise the table changes only by flipping that user's flag, and the returned row is that user's id, username, email and role with the flipped flag |
| AuthRoutes.SuperadminLocksOut | routes/authRoutes.js:53-56 | for any users table, a verified "superadmin" token is refused with 403 by the route commented "admin OR superadmin" |
| LifeEventController.CheckTitle | controllers/lifeEventController.js:17-20 | a non-string title throws; a blank string is refused; a missing title becomes "Untitled Event"; a kept title is non-empty and trimmed |
| LifeEventController.DescriptionOf | controllers/lifeEventController.js:17-35 | a missing description becomes "", a string is trimmed, anything else throws |
| LifeEventController.CreateLifeEvent | controllers/lifeEventController.js:14-45 | 401 exactly when the caller's id is missing or 0; the table changes only on 201, by one new row owned by the caller |
| LifeEventController.NonStringTitleFails | controllers/lifeEventController.js:17-43 | an explicit `null` title is not defaulted, and the request fails with 500 |
| LifeEventController.BlankTitleRejected | controllers/lifeEventController.js:17-20 | with a caller present, 400 "title required" exactly when the title was sent as a white-space-only string |
| LifeEventController.InvalidDateRejected | controllers/lifeEventController.js:22-27 | after an acceptable title, 400 "invalid date" exactly when a truthy date was sent and does not parse |
| LifeEventController.CreatedExactly | controllers/lifeEventController.js:19-39 | 201 exactly when there is a caller, an acceptable title, a usable date and a string or missing description, and the insert succeeds |
| LifeEventController.CreatedTitle | controllers/lifeEventController.js:17-35 | the stored title is the trimmed title sent, or "Untitled Event", and is never empty |
| LifeEventController.CreatedDescriptionAndType | controllers/lifeEventController.js:17-35 | the stored description is trimmed (or empty); the event type is stored exactly as sent, or as "general" |
| LifeEventController.CreatedDate | controllers/lifeEventController.js:5-36 | the stored day is the parsed day sent, or today when none was sent |
| LifeEventController.OwnedInListingOrder | controllers/lifeEventController.js:56-62 | the caller's event ids, each once, by event date and then creation time, both descending |
| LifeEventController.GetLifeEventsByUser | controllers/lifeEventController.js:50-70 | 401 without a caller; otherwise exactly the caller's events, each once, latest day first and latest created first within a day |
| LifeEventController.ListedForOwner | controllers/lifeEventController.js:56-62 | every event appears in its owner's listing |
| LifeEventController.NotListedForOthers | controllers/lifeEventController.js:56-62 | no event appears in another user's listing |
| LifeEventController.CreatedEventListedForOwnerOnly | controllers/lifeEventController.js:31-62 | a created event is listed for its owner and for nobody else |

## Left out

- The OpenAI client and its HTTP call: a network call. The generator is a parameter, and a failure stands for every error the call or the reading of its reply can throw.
- bcrypt, jsonwebtoken, `crypto.randomBytes` and nodemailer: foreign libraries. They are parameters. Token expiry (`expiresIn: "1h"`) is part of `jwt.verify` and is not modelled.
- `new Date(...)` and `toLocaleDateString("en-CA")`: JavaScript date parsing depends on the time zone. It is a partial function from the request value to a calendar day, plus today's date.
- `BEGIN`, `COMMIT` and `ROLLBACK` in `createMyth`: they run on a pool, not on one connection, so they give no atomicity. The insert is one step that either succeeds or throws.
- Database faults other than the modelled ones: only the myth insert, the life-event insert, the username and id constraints at registration, the verification mail, and non-integer path ids fail. Every other query is assumed to succeed, so its 500 branch is not modelled.
- The "expires in 24 hours" line of the verification mail: it is never enforced.
- The `is_active` value of a new account comes from a column default that the code does not show. It is the parameter `activeByDefault`.
- The message texts of the responses and the email reported by `verifyEmail`: only the status and the data returned are modelled.
- Console logging, Express wiring (server.js, the route files other than routes/authRoutes.js), db.js, testDB.js, seedAdmin.js and routes/openaiRoutes.js: setup and scripts.
- The order among rows with equal sort keys: SQL leaves it unspecified. The model breaks ties by id, but the contracts promise only the SQL order.
- AuthController.Login: requires that no two users share an email, which every modelled transition keeps when requests run one at a time. With duplicate emails the source logs into whichever row the database returns first.
- AuthController.FindByEmail: requires that no two users share an email, for the same reason.
- MythController.CreateMyth: the request title is a string or absent. A non-string title would be stored only after the database coerces it.
- MythController.CreateMyth: whether the Myths table accepts a NULL `user_id` is not in the code. A caller without an id is stored as a row with no owner, and `insertSucceeds` decides whether the insert throws instead.
- MythController.CreateMyth: a non-string truthy event makes `event.trim` throw outside the try block. The outcome is `Crashed`, with no status, because the framework decides the answer.
- AuthController.Register: the request fields are strings or absent. A truthy non-string password makes `bcrypt.hash` throw (`controllers/authController.js:39`), which answers 500; this path and other non-string fields are not modelled.
- AuthController.Login: the request fields are strings or absent. A truthy non-string password for an active, verified account makes `bcrypt.compare` throw (`controllers/authController.js:123`), which answers 500 through the catch at lines 146-149; the model answers only 401 or a login there.
- AuthController.Register: requests are modelled one at a time, each handler as one atomic transition. The email check (lines 34-36) and the insert (lines 45-49) are separate queries with no transaction, and the code shows no unique constraint on the email column. Two concurrent registrations with the same email can therefore both answer 201 and leave duplicate emails, which the model, answering 400 to the second, does not capture; `Login` and `FindByEmail` require unique emails for this reason.
- LifeEventController.CreateLifeEvent: the caller's id is an integer or absent. A non-integer id claim is not modelled.
- AuthRoutes.GetMe: a payload whose `user_id` is not an integer is treated like a missing one.

=== FILE: auth_controller.dfy ===
/** Account lifecycle (controllers/authController.js): registration,
    email verification and login as transitions on the users table.

    The foreign calls are parameters: the bcrypt hash computed for the new
    password (`hashed`), bcrypt's comparison (`matches`), the random
    verification token, `jwt.sign` (`sign`), whether the verification mail was
    sent, the id the database assigns and `NOW()`. */
module AuthController {
  import opened Wrappers
  import opened Js
  import opened AuthMiddleware
  import opened Tables


  /** A bcrypt hash; only `matches` looks inside it. */
  type Hash = string

  /** A row of the users table. */
  datatype User = User(username: string, email: string, passwordHash: Hash, role: string,
                       isVerified: bool, verifyToken: Option<string>, isActive: bool,
                       createdAt: Timestamp)

  type Users = map<UserId, User>

  /** No two rows share an email. Registration checks for the email before
      it inserts, so every transition of this model, taken one request at a
      time, keeps it; the table itself has no such constraint. */
  predicate EmailsUnique(users: Users) {
    forall a, b :: a in users && b in users && users[a].email == users[b].email ==> a == b
  }

  /** No two rows share a username: the column carries a unique constraint
      (the admin seed script upserts on it), so an insert that would break it
      throws. */
  predicate UsernamesUnique(users: Users) {
    forall a, b :: a in users && b in users && users[a].username == users[b].username ==> a == b
  }

  predicate WellFormed(users: Users) {
    EmailsUnique(users) && UsernamesUnique(users)
  }

  predicate EmailTaken(users: Users, email: string) {
    exists id :: id in users && users[id].email == email
  }

  predicate UsernameTaken(users: Users, username: string) {
    exists id :: id in users && users[id].username == username
  }

  /** The role every self-registered account gets. */
  const DefaultRole: string := "user"

  datatype RegisterBody = RegisterBody(username: Option<string>, email: Option<string>,
                                       password: Option<string>)

  datatype RegisterResponse =
    | FieldsRequired      // 400
    | EmailRegistered     // 400: the email is already in use
    | RegisterFailed      // 500: the insert or the mail threw
    | Registered          // 201

  /** The verification mail: its recipient and the token its link carries. */
  datatype Mail = Mail(to: string, token: string)

  datatype Registration = Registration(response: RegisterResponse, users: Users, mail: Option<Mail>)

  function RegisterStatus(r: RegisterResponse): int {
    match r
    case FieldsRequired => 400
    case EmailRegistered => 400
    case RegisterFailed => 500
    case Registered => 201
  }

  /** The row registration inserts; `is_active` takes the column default. */
  function NewUser(username: string, email: string, hashed: Hash, token: string,
                   activeByDefault: bool, now: Timestamp): User
  {
    User(username, email, hashed, DefaultRole, false, Some(token), activeByDefault, now)
  }

  /** `registerUser` (controllers/authController.js lines 26-89). */
  function Register(users: Users, body: RegisterBody, hashed: Hash, token: string,
                    activeByDefault: bool, id: UserId, now: Timestamp,
                    mailSucceeds: bool): (r: Registration)
    ensures r.response.FieldsRequired? <==>
              !Present(body.username) || !Present(body.email) || !Present(body.password)
    ensures r.response.EmailRegistered? <==>
              && Present(body.username) && Present(body.email) && Present(body.password)
              && EmailTaken(users, body.email.value)
    ensures r.response.FieldsRequired? || r.response.EmailRegistered? ==> r.users == users && r.mail.None?
    ensures r.mail.Some? ==> r.mail.value == Mail(body.email.value, token)
    ensures r.mail.Some? <==> r.users != users
    ensures r.users != users ==>
              && id !in users
              && r.users == users[id := NewUser(body.username.value, body.email.value, hashed, token,
                                                activeByDefault, now)]
              && r.mail.Some?
    ensures r.response.Registered? <==> r.users != users && mailSucceeds
  {
    if !Present(body.username) || !Present(body.email) || !Present(body.password) then
      Registration(FieldsRequired, users, None)
    else if EmailTaken(users, body.email.value) then
      Registration(EmailRegistered, users, None)
    else if UsernameTaken(users, body.username.value) || id in users then
      Registration(RegisterFailed, users, None)
    else
      var users' := users[id := NewUser(body.username.value, body.email.value, hashed, token,
                                        activeByDefault, now)];
      assert id in users' && id !in users;
      var mail := Some(Mail(body.email.value, token));
      if mailSucceeds then Registration(Registered, users', mail)
      else Registration(RegisterFailed, users', mail)
  }

  /** The row a registration inserts is an unverified ordinary account that
      holds the mailed token, and every earlier row is left as it was. */
  lemma NewAccountUnverified(users: Users, body: RegisterBody, hashed: Hash, token: string,
                             activeByDefault: bool, id: UserId, now: Timestamp, mailSucceeds: bool)
    requires Present(body.username) && Present(body.email) && Present(body.password)
    requires !EmailTaken(users, body.email.value) && !UsernameTaken(users, body.username.value)
    requires id !in users
    ensures var r := Register(users, body, hashed, token, activeByDefault, id, now, mailSucceeds);
            && r.users.Keys == users.Keys + {id}
            && r.users[id].role == DefaultRole
            && !r.users[id].isVerified
            && r.users[id].verifyToken == Some(token) && r.mail == Some(Mail(r.users[id].email, token))
            && (forall other :: other in users ==> r.users[other] == users[other])
  {
  }

  /** A failed mail after the insert leaves the new, unverified row in place:
      there is no transaction around the two steps. */
  lemma MailFailureKeepsRow(users: Users, body: RegisterBody, hashed: Hash, token: string,
                            activeByDefault: bool, id: UserId, now: Timestamp)
    requires Present(body.username) && Present(body.email) && Present(body.password)
    requires !EmailTaken(users, body.email.value) && !UsernameTaken(users, body.username.value)
    requires id !in users
    ensures var r := Register(users, body, hashed, token, activeByDefault, id, now, false);
            && RegisterStatus(r.response) == 500
            && id in r.users && r.users[id].role == DefaultRole
            && !r.users[id].isVerified && r.users[id].verifyToken == Some(token)
  {
  }

  /** Registration keeps emails and usernames unique. */
  lemma RegisterKeepsWellFormed(users: Users, body: RegisterBody, hashed: Hash, token: string,
                                activeByDefault: bool, id: UserId, now: Timestamp, mailSucceeds: bool)
    requires WellFormed(users)
    ensures WellFormed(Register(users, body, hashed, token, activeByDefault, id, now, mailSucceeds).users)
  {
    var r := Register(users, body, hashed, token, activeByDefault, id, now, mailSucceeds);
    if r.users != users {
      assert !EmailTaken(users, body.email.value);
      assert !UsernameTaken(users, body.username.value);
    }
  }

  /** The row with a given email. */
  function FindByEmail(users: Users, email: string): (r: Option<UserId>)
    requires EmailsUnique(users)
    ensures r.Some? ==> r.value in users && users[r.value].email == email
    ensures r.None? <==> !EmailTaken(users, email)
  {
    if exists id :: id in users && users[id].email == email then
      var id :| id in users && users[id].email == email;
      Some(id)
    else None
  }

  datatype LoginBody = LoginBody(email: Option<string>, password: Option<string>)

  /** The user object a successful login returns: no password hash. */
  datatype PublicUser = PublicUser(userId: UserId, username: string, email: string, role: string)

  datatype LoginResponse =
    | CredentialsRequired                     // 400
    | UserNotFound                            // 404
    | AccountInactive                         // 403
    | EmailUnverified                         // 403
    | InvalidCredentials                      // 401
    | LoggedIn(token: string, user: PublicUser)  // 200

  /** The claims a login token carries: exactly the user id and role. */
  function ClaimsOf(id: UserId, u: User): Payload {
    Payload(Some(id), Some(u.role))
  }

  /** `loginUser` (controllers/authController.js lines 94-150): the checks run
      in a fixed order and the first failing one decides the response. */
  function Login(users: Users, body: LoginBody, matches: (string, Hash) -> bool,
                 sign: Payload -> string): (r: LoginResponse)
    requires EmailsUnique(users)
    ensures r.CredentialsRequired? <==> !Present(body.email) || !Present(body.password)
    ensures r.UserNotFound? <==> Present(body.email) && Present(body.password)
                                 && !EmailTaken(users, body.email.value)
    ensures !r.CredentialsRequired? && !r.UserNotFound? ==>
              var id := FindByEmail(users, body.email.value).value;
              && (r.AccountInactive? <==> !users[id].isActive)
              && (r.EmailUnverified? <==> users[id].isActive && !users[id].isVerified)
              && (r.InvalidCredentials? <==>
                    (users[id].isActive && users[id].isVerified
                     && !matches(body.password.value, users[id].passwordHash)))
              && (r.LoggedIn? ==> r.token == sign(ClaimsOf(id, users[id]))
                                  && r.user == PublicUser(id, users[id].username, users[id].email, users[id].role))
  {
    if !Present(body.email) || !Present(body.password) then CredentialsRequired
    else match FindByEmail(users, body.email.value)
      case None => UserNotFound
      case Some(id) =>
        var u := users[id];
        if !u.isActive then AccountInactive
        else if !u.isVerified then EmailUnverified
        else if !matches(body.password.value, u.passwordHash) then InvalidCredentials
        else LoggedIn(sign(ClaimsOf(id, u)), PublicUser(id, u.username, u.email, u.role))
  }

  datatype VerifyResponse =
    | TokenRejected                     // 400
    | EmailVerified(rows: set<UserId>)  // 200, naming the email of an updated row

  datatype EmailVerification = EmailVerification(response: VerifyResponse, users: Users)

  /** `verifyEmail` (controllers/authController.js lines 155-178): every row
      holding the token is marked verified and its token cleared. */
  function VerifyEmail(users: Users, token: string): (r: EmailVerification)
    ensures r.users.Keys == users.Keys
    ensures r.response.TokenRejected? <==> forall id :: id in users ==> users[id].verifyToken != Some(token)
    ensures r.response.EmailVerified? ==>
              r.response.rows != {}
              && forall id :: id in r.response.rows <==> id in users && users[id].verifyToken == Some(token)
    ensures forall id :: id in users ==>
              r.users[id] == if users[id].verifyToken == Some(token)
                             then users[id].(isVerified := true, verifyToken := None)
                             else users[id]
  {
    var hits := set id | id in users && users[id].verifyToken == Some(token);
    var users' := map id | id in users ::
      if users[id].verifyToken == Some(token) then users[id].(isVerified := true, verifyToken := None)
      else users[id];
    if forall id :: id in users ==> users[id].verifyToken != Some(token) then
      EmailVerification(TokenRejected, users')
    else
      var hit :| hit in users && users[hit].verifyToken == Some(token);
      assert hit in hits;
      EmailVerification(EmailVerified(hits), users')
  }

  /** A verification token works once: using it again is refused. */
  lemma TokenSingleUse(users: Users, token: string)
    requires exists id :: id in users && users[id].verifyToken == Some(token)
    ensures VerifyEmail(users, token).response.EmailVerified?
    ensures VerifyEmail(VerifyEmail(users, token).users, token).response.TokenRejected?
  {
  }

  /** Verification changes only verification fields, so it keeps the table
      well formed. */
  lemma VerifyEmailKeepsWellFormed(users: Users, token: string)
    requires WellFormed(users)
    ensures WellFormed(VerifyEmail(users, token).users)
  {
  }

  /** The lifecycle end to end: a fresh registration whose mail went out,
      followed by the verification link and a login with the same password,
      yields a token signed over exactly the new user's id and the role
      "user" -- provided new accounts are active by default; otherwise the
      login is refused as inactive. */
  lemma RegisterVerifyLogin(users: Users, username: string, email: string, password: string,
                            hashed: Hash, token: string, activeByDefault: bool,
                            id: UserId, now: Timestamp,
                            matches: (string, Hash) -> bool, sign: Payload -> string)
    requires WellFormed(users)
    requires username != "" && email != "" && password != ""
    requires !EmailTaken(users, email) && !UsernameTaken(users, username) && id !in users
    requires matches(password, hashed)
    ensures var reg := Register(users, RegisterBody(Some(username), Some(email), Some(password)),
                                hashed, token, activeByDefault, id, now, true);
            var ver := VerifyEmail(reg.users, token);
            WellFormed(ver.users)
            && Login(ver.users, LoginBody(Some(email), Some(password)), matches, sign)
               == if activeByDefault
                  then LoggedIn(sign(Payload(Some(id), Some(DefaultRole))),
                                PublicUser(id, username, email, DefaultRole))
                  else AccountInactive
  {
    var body := RegisterBody(Some(username), Some(email), Some(password));
    var reg := Register(users, body, hashed, token, activeByDefault, id, now, true);
    RegisterKeepsWellFormed(users, body, hashed, token, activeByDefault, id, now, true);
    assert reg.response.Registered?;
    var ver := VerifyEmail(reg.users, token);
    VerifyEmailKeepsWellFormed(reg.users, token);
    assert id in ver.users && ver.users[id].email == email;
    assert FindByEmail(ver.users, email) == Some(id);
  }
}

=== FILE: auth_middleware.dfy ===
/** `verifyToken` and `requireRole`. Token verification (`jwt.verify` with
    the server secret) is a parameter: a function from the token text to the
    decoded payload, or `None` when verification throws. */
module AuthMiddleware {
  import opened Wrappers
  import opened Js

  /** The decoded token payload that becomes `req.user`. Login signs
      `{user_id, role}`; a payload verified by the secret may still lack
      either field. */
  datatype Payload = Payload(userId: Option<int>, role: Option<string>)

  /** The exact, case-sensitive prefix an Authorization header must have. */
  const BearerPrefix: string := "Bearer "

  /** The token: the second piece of `header.split(" ")`, that is, the text
      after `"Bearer "` up to the next space. */
  function BearerToken(header: string): (token: string)
    requires StartsWith(header, BearerPrefix)
    ensures ' ' !in token
    ensures var n := |BearerPrefix|;
            n + |token| <= |header| && header[n..n + |token|] == token
    ensures var n := |BearerPrefix|;
            n + |token| == |header| || header[n + |token|] == ' '
  {
    var rest := header[|BearerPrefix|..];
    assert header == "Bearer" + [' '] + rest;
    SplitAtSeparator("Bearer", ' ', rest);
    assert Split(header, ' ')[1] == Split(rest, ' ')[0];
    Split(header, ' ')[1]
  }

  /** Why a request was turned away with 401. */
  datatype Rejection = NoToken | InvalidToken

  /** Outcome of `verifyToken`: a 401 response, or `next()` with `req.user`
      set. */
  datatype Verification = Rejected(why: Rejection) | Proceed(user: Payload)

  /** The header is present, non-empty and starts with `"Bearer "`. */
  predicate HasBearer(header: Option<string>) {
    header.Some? && header.value != "" && StartsWith(header.value, BearerPrefix)
  }

  /** `verifyToken` (middleware/authMiddleware.js lines 7-24). */
  function VerifyToken(header: Option<string>, verify: string -> Option<Payload>): (r: Verification)
    ensures r.Rejected? && r.why == NoToken <==> !HasBearer(header)
    ensures r.Proceed? <==> HasBearer(header) && verify(BearerToken(header.value)).Some?
    ensures r.Proceed? ==> r.user == verify(BearerToken(header.value)).value
  {
    if header.None? || header.value == "" || !StartsWith(header.value, BearerPrefix) then
      Rejected(NoToken)
    else
      match verify(BearerToken(header.value))
      case None => Rejected(InvalidToken)
      case Some(decoded) => Proceed(decoded)
  }

  /** Outcome of `requireRole`: exactly one of 401, 403 or `next()`. */
  datatype RoleCheck = Unauthorized | Forbidden | Allowed

  /** `requireRole(requiredRole)` (middleware/authMiddleware.js lines 29-40),
      with `user` the value of `req.user`. The role comparison is exact string
      equality. */
  function RequireRole(requiredRole: string, user: Option<Payload>): (r: RoleCheck)
    ensures r.Unauthorized? <==> user.None?
    ensures r.Allowed? <==> user.Some? && user.value.role == Some(requiredRole)
    ensures r.Forbidden? <==> user.Some? && user.value.role != Some(requiredRole)
  {
    if user.None? then Unauthorized
    else if user.value.role != Some(requiredRole) then Forbidden
    else Allowed
  }

  /** A token without spaces, sent after the prefix, is read back intact. */
  lemma BearerRoundTrip(token: string)
    requires ' ' !in token
    ensures StartsWith(BearerPrefix + token, BearerPrefix)
    ensures BearerToken(BearerPrefix + token) == token
  {
    var h := BearerPrefix + token;
    assert h[..|BearerPrefix|] == BearerPrefix;
    var t := BearerToken(h);
    assert h[|BearerPrefix|..] == token;
    assert t == token[..|t|];
  }

  /** Two spaces after `Bearer` give the empty token. */
  lemma DoubleSpaceGivesEmptyToken(rest: string)
    ensures StartsWith("Bearer  " + rest, BearerPrefix)
    ensures BearerToken("Bearer  " + rest) == ""
  {
    var h := "Bearer  " + rest;
    assert h[..7] == BearerPrefix;
    assert h[7] == ' ';
  }

  /** The prefix check is case-sensitive: a lower-case scheme is refused
      without consulting the verifier. */
  lemma LowerCaseSchemeRejected(rest: string, verify: string -> Option<Payload>)
    ensures VerifyToken(Some("bearer " + rest), verify) == Rejected(NoToken)
  {
    var h := "bearer " + rest;
    assert h[0] != BearerPrefix[0];
  }

  /** A role that merely contains the required one is still refused. */
  lemma SuperadminIsNotAdmin(userId: Option<int>)
    ensures RequireRole("admin", Some(Payload(userId, Some("superadmin")))) == Forbidden
  {
  }
}

=== FILE: auth_routes.dfy ===
/** The handlers routes/authRoutes.js defines inline: `/me`, the admin
    listing `/all-users` and the admin switch `/toggle-active/:id`, each
    behind `verifyToken` and the admin ones also behind
    `requireRole("admin")`. */
module AuthRoutes {
  import opened Wrappers
  import opened Js
  import opened Ordering
  import opened AuthMiddleware
  import opened AuthController
  import opened Tables

  /** The columns `/me` and `/all-users` select: no hash, no token. */
  datatype UserSummary = UserSummary(userId: UserId, username: string, email: string,
                                     role: string, isVerified: bool)

  /** The columns toggle-active returns. */
  datatype ActiveSummary = ActiveSummary(userId: UserId, username: string, email: string,
                                         role: string, isActive: bool)

  function SummaryOf(id: UserId, u: User): UserSummary {
    UserSummary(id, u.username, u.email, u.role, u.isVerified)
  }

  /** The role the admin routes require, compared exactly. */
  const AdminRole: string := "admin"

  /** The middleware chain of a route: the status it answers with, or the
      payload that reaches the handler. */
  datatype Gate = Stopped(status: int) | Passed(user: Payload)

  /** `verifyToken` followed by `requireRole(AdminRole)`. */
  function AdminGate(header: Option<string>, verify: string -> Option<Payload>): (g: Gate)
    ensures g.Passed? <==> HasBearer(header) && verify(BearerToken(header.value)).Some?
                           && verify(BearerToken(header.value)).value.role == Some(AdminRole)
    ensures g.Passed? ==> g.user == verify(BearerToken(header.value)).value
    ensures g.Stopped? ==> g.status == 401 || g.status == 403
    ensures g.Stopped? && g.status == 403 <==> HasBearer(header) && verify(BearerToken(header.value)).Some?
                                               && verify(BearerToken(header.value)).value.role != Some(AdminRole)
  {
    match VerifyToken(header, verify)
    case Rejected(_) => Stopped(401)
    case Proceed(user) =>
      match RequireRole(AdminRole, Some(user))
      case Unauthorized => Stopped(401)
      case Forbidden => Stopped(403)
      case Allowed => Passed(user)
  }

  datatype MeResponse = MeRejected | MeNotFound | Me(user: UserSummary)

  /** `GET /me` (routes/authRoutes.js lines 32-47): the caller's own row,
      looked up by the token's `user_id`; a payload without one matches no
      row. */
  function GetMe(users: Users, header: Option<string>, verify: string -> Option<Payload>): (r: MeResponse)
    ensures r.MeRejected? <==> VerifyToken(header, verify).Rejected?
    ensures r.MeNotFound? <==>
              (VerifyToken(header, verify).Proceed?
               && var uid := VerifyToken(header, verify).user.userId;
                  uid.None? || uid.value !in users)
    ensures r.Me? ==> var uid := VerifyToken(header, verify).user.userId;
                      uid.Some? && uid.value in users && r.user == SummaryOf(uid.value, users[uid.value])
  {
    match VerifyToken(header, verify)
    case Rejected(_) => MeRejected
    case Proceed(user) =>
      match user.userId
      case None => MeNotFound
      case Some(uid) => if uid in users then Me(SummaryOf(uid, users[uid])) else MeNotFound
  }

  /** The token a successful login returns, sent back as a bearer token to
      `/me`, yields the row of the user who logged in, as long as the signer
      produces tokens without spaces that the verifier decodes to what was
      signed. */
  lemma MeAfterLogin(users: Users, body: LoginBody, matches: (string, Hash) -> bool,
                     sign: Payload -> string, verify: string -> Option<Payload>)
    requires EmailsUnique(users)
    requires Present(body.email) && Present(body.password)
    requires exists id :: id in users && users[id].email == body.email.value
                          && users[id].isActive && users[id].isVerified
                          && matches(body.password.value, users[id].passwordHash)
    requires forall p :: ' ' !in sign(p) && verify(sign(p)) == Some(p)
    ensures var r := Login(users, body, matches, sign);
            && r.LoggedIn? && r.user.userId in users
            && GetMe(users, Some(BearerPrefix + r.token), verify)
               == Me(SummaryOf(r.user.userId, users[r.user.userId]))
  {
    var r := Login(users, body, matches, sign);
    var id := FindByEmail(users, body.email.value).value;
    assert r.LoggedIn?;
    var claims := ClaimsOf(id, users[id]);
    assert r.token == sign(claims) && verify(sign(claims)) == Some(claims);
    BearerRoundTrip(r.token);
    assert HasBearer(Some(BearerPrefix + r.token));
  }

  datatype AllUsersResponse = AllUsersStopped(status: int) | UserList(rows: seq<UserSummary>)

  /** Every user id in ascending order. */
  function IdsAscending(users: Users): (ids: seq<UserId>)
    ensures forall i :: 0 <= i < |ids| ==> ids[i] in users
    ensures forall id :: id in users ==> id in ids
    ensures forall i, j :: 0 <= i < j < |ids| ==> ids[i] < ids[j]
  {
    // Descending in the negated id is ascending in the id.
    var ranks := map id | id in users :: Rank(-id, 0);
    var ids := ByRankDesc(users.Keys, ranks);
    assert forall i, j :: 0 <= i < j < |ids| ==> ids[i] < ids[j] by {
      forall i, j | 0 <= i < j < |ids| ensures ids[i] < ids[j] {
        assert AtLeast(ranks[ids[i]], ranks[ids[j]]) && ids[i] != ids[j];
      }
    }
    ids
  }

  /** Every user, by ascending id. */
  function UserListing(users: Users): (rows: seq<UserSummary>)
    ensures forall i :: 0 <= i < |rows| ==>
              rows[i].userId in users && rows[i] == SummaryOf(rows[i].userId, users[rows[i].userId])
    ensures forall id :: id in users ==> exists i :: 0 <= i < |rows| && rows[i].userId == id
    ensures forall i, j :: 0 <= i < j < |rows| ==> rows[i].userId < rows[j].userId
  {
    var ids := IdsAscending(users);
    var rows := Project(ids, users, SummaryOf);
    ProjectedSummaries(users, ids);
    SummariesFollowIds(users, ids, rows);
    rows
  }

  /** The projection of `ids` is their summaries, one by one. */
  lemma ProjectedSummaries(users: Users, ids: seq<UserId>)
    requires forall i :: 0 <= i < |ids| ==> ids[i] in users
    ensures var rows := Project(ids, users, SummaryOf);
            |rows| == |ids| && forall i :: 0 <= i < |ids| ==> rows[i] == SummaryOf(ids[i], users[ids[i]])
  {
  }

  lemma SummariesFollowIds(users: Users, ids: seq<UserId>, rows: seq<UserSummary>)
    requires forall i :: 0 <= i < |ids| ==> ids[i] in users
    requires forall id :: id in users ==> id in ids
    requires forall i, j :: 0 <= i < j < |ids| ==> ids[i] < ids[j]
    requires |rows| == |ids|
    requires forall i :: 0 <= i < |ids| ==> rows[i] == SummaryOf(ids[i], users[ids[i]])
    ensures forall i :: 0 <= i < |rows| ==>
              rows[i].userId in users && rows[i] == SummaryOf(rows[i].userId, users[rows[i].userId])
    ensures forall id :: id in users ==> exists i :: 0 <= i < |rows| && rows[i].userId == id
    ensures forall i, j :: 0 <= i < j < |rows| ==> rows[i].userId < rows[j].userId
  {
    assert forall i :: 0 <= i < |rows| ==> rows[i].userId == ids[i];
    forall id | id in users ensures exists i :: 0 <= i < |rows| && rows[i].userId == id {
      var i :| 0 <= i < |ids| && ids[i] == id;
      assert rows[i].userId == id;
    }
  }

  /** `GET /all-users` (routes/authRoutes.js lines 53-69): the listing, for an
      admin only. */
  function AllUsers(users: Users, header: Option<string>, verify: string -> Option<Payload>): (r: AllUsersResponse)
    ensures r.UserList? <==> AdminGate(header, verify).Passed?
    ensures r.AllUsersStopped? ==> r.status == AdminGate(header, verify).status
    ensures r.UserList? ==> r.rows == UserListing(users)
  {
    match AdminGate(header, verify)
    case Stopped(status) => AllUsersStopped(status)
    case Passed(_) => UserList(UserListing(users))
  }

  /** `UPDATE users SET is_active = NOT is_active WHERE user_id = $1`. */
  function Toggle(users: Users, id: UserId): (r: Users)
    ensures r.Keys == users.Keys
    ensures id in users ==> r[id] == users[id].(isActive := !users[id].isActive)
    ensures forall other :: other in users && other != id ==> r[other] == users[other]
  {
    if id in users then users[id := users[id].(isActive := !users[id].isActive)] else users
  }

  /** Toggling the same user twice restores the table. */
  lemma ToggleTwice(users: Users, id: UserId)
    ensures Toggle(Toggle(users, id), id) == users
  {
  }

  /** Toggling touches only `is_active`, so it keeps the table well formed. */
  lemma ToggleKeepsWellFormed(users: Users, id: UserId)
    requires WellFormed(users)
    ensures WellFormed(Toggle(users, id))
  {
  }

  datatype ToggleResponse =
    | ToggleStopped(status: int)            // 401 or 403 from the middleware
    | ToggleFailed                          // 500: the id is not an integer
    | ToggleDone(user: Option<ActiveSummary>)  // 200, with the updated row if any

  datatype Toggling = Toggling(response: ToggleResponse, users: Users)

  /** `PATCH /toggle-active/:id` (routes/authRoutes.js lines 71-97). `id` is
      the path parameter as the database reads it: `None` when it is not an
      integer. */
  function ToggleActive(users: Users, header: Option<string>, verify: string -> Option<Payload>,
                        id: Option<UserId>): (r: Toggling)
    ensures r.response.ToggleStopped? <==> AdminGate(header, verify).Stopped?
    ensures r.response.ToggleFailed? <==> AdminGate(header, verify).Passed? && id.None?
    ensures r.response.ToggleDone? ==> id.Some? && r.users == Toggle(users, id.value)
    ensures !r.response.ToggleDone? ==> r.users == users
    ensures r.response.ToggleDone? ==>
              (r.response.user.None? <==> id.value !in users)
              && (r.response.user.Some? ==>
                    var u := users[id.value];
                    r.response.user.value == ActiveSummary(id.value, u.username, u.email, u.role, !u.isActive))
  {
    match AdminGate(header, verify)
    case Stopped(status) => Toggling(ToggleStopped(status), users)
    case Passed(_) =>
      match id
      case None => Toggling(ToggleFailed, users)
      case Some(k) =>
        var users' := Toggle(users, k);
        var row := if k in users'
                   then Some(ActiveSummary(k, users'[k].username, users'[k].email, users'[k].role, users'[k].isActive))
                   else None;
        Toggling(ToggleDone(row), users')
  }

  /** A role of "superadmin" does not pass the admin gate, although the
      route comment says admin or superadmin. */
  lemma SuperadminLocksOut(users: Users, header: Option<string>, verify: string -> Option<Payload>)
    requires HasBearer(header)
    requires verify(BearerToken(header.value)).Some?
    requires verify(BearerToken(header.value)).value.role == Some("superadmin")
    ensures AllUsers(users, header, verify) == AllUsersStopped(403)
  {
  }
}

=== FILE: js.dfy ===
/** The pieces of JavaScript string and value semantics the handlers rely on:
    what `String.prototype.trim` and the regex class `\s` treat as white space,
    how a regex with the `i` flag compares characters, truthiness of request
    values, `startsWith`, and `split` on a one-character separator.

    Strings are sequences of characters. Every character these operations
    single out lies in the Basic Multilingual Plane, where a Dafny `char` and a
    UTF-16 code unit coincide. */
module Js {
  import opened Wrappers

  /** A value read from a parsed JSON request body. The handlers inspect
      strings only; any other value matters through its truthiness and through
      having no `trim` method. */
  datatype JsValue = Undefined | Null | Str(text: string) | NonString(truthy: bool)

  /** JavaScript truthiness of a body value. */
  predicate Truthy(v: JsValue) {
    match v
    case Undefined => false
    case Null => false
    case Str(t) => t != ""
    case NonString(b) => b
  }

  /** Truthiness of an optional string (`None` is `undefined` or `null`). */
  predicate Present(v: Option<string>) {
    v.Some? && v.value != ""
  }

  /** `a || b` on an optional string: the value itself when truthy. */
  function OrElse(v: Option<string>, fallback: string): string {
    if Present(v) then v.value else fallback
  }

  /** ECMAScript WhiteSpace and LineTerminator code points: the set that
      `trim()` strips and that the regex escape `\s` matches. */
  predicate IsWhitespace(c: char) {
    || c == '\t' || c == '\n' || c == '\U{000B}' || c == '\U{000C}' || c == '\r'
    || c == ' ' || c == '\U{00A0}' || c == '\U{1680}'
    || ('\U{2000}' <= c <= '\U{200A}')
    || c == '\U{2028}' || c == '\U{2029}' || c == '\U{202F}' || c == '\U{205F}'
    || c == '\U{3000}' || c == '\U{FEFF}'
  }

  predicate AllWhitespace(s: string) {
    forall i :: 0 <= i < |s| ==> IsWhitespace(s[i])
  }

  /** The end of the white-space run that starts at index `i`. */
  function SpaceAfter(s: string, i: nat): (n: nat)
    requires i <= |s|
    ensures i <= n <= |s|
    ensures forall k :: i <= k < n ==> IsWhitespace(s[k])
    ensures n == |s| || !IsWhitespace(s[n])
    decreases |s| - i
  {
    if i < |s| && IsWhitespace(s[i]) then SpaceAfter(s, i + 1) else i
  }

  /** The start of the white-space run that ends just before index `j`. */
  function SpaceBefore(s: string, j: nat): (n: nat)
    requires j <= |s|
    ensures n <= j
    ensures forall k :: n <= k < j ==> IsWhitespace(s[k])
    ensures n == 0 || !IsWhitespace(s[n - 1])
  {
    if j > 0 && IsWhitespace(s[j - 1]) then SpaceBefore(s, j - 1) else j
  }

  /** Length of the white-space prefix that `trim()` removes. */
  function LeadingSpace(s: string): (n: nat)
    ensures n <= |s|
  {
    SpaceAfter(s, 0)
  }

  /** `trim()`: the text between the longest white-space prefix and the
      longest white-space suffix. */
  function Trim(s: string): (r: string)
    ensures |r| <= |s| - LeadingSpace(s)
    ensures r == s[LeadingSpace(s)..LeadingSpace(s) + |r|]
    ensures AllWhitespace(s[..LeadingSpace(s)]) && AllWhitespace(s[LeadingSpace(s) + |r|..])
    ensures r == [] || (!IsWhitespace(r[0]) && !IsWhitespace(r[|r| - 1]))
    ensures r == [] <==> AllWhitespace(s)
  {
    var a := LeadingSpace(s);
    if a == |s| then [] else s[a..SpaceBefore(s, |s|)]
  }

  /** Text with no white space at either end is left alone by `trim()`. */
  lemma TrimOfTrimmed(r: string)
    requires r == [] || (!IsWhitespace(r[0]) && !IsWhitespace(r[|r| - 1]))
    ensures Trim(r) == r
  {
  }

  /** ASCII upper-casing. */
  function AsciiUpper(c: char): char {
    if 'a' <= c <= 'z' then (c as int - 32) as char else c
  }

  /** Character equality under a regex `i` flag without `u`. That mode
      canonicalises by upper-casing but never maps a non-ASCII character onto
      an ASCII one, so against an ASCII pattern character it is ASCII case
      folding; every pattern in this model is ASCII. */
  predicate SameIgnoringCase(c: char, pattern: char) {
    AsciiUpper(c) == AsciiUpper(pattern)
  }

  /** `s.startsWith(prefix)`: case-sensitive. */
  predicate StartsWith(s: string, prefix: string) {
    |prefix| <= |s| && s[..|prefix|] == prefix
  }

  /** `s.split(sep)` for a one-character separator: the maximal separator-free
      pieces between separators, empty pieces included. */
  function Split(s: string, sep: char): (parts: seq<string>)
    ensures |parts| >= 1
    ensures forall i :: 0 <= i < |parts| ==> sep !in parts[i]
    ensures |parts[0]| <= |s| && parts[0] == s[..|parts[0]|]
    ensures |parts[0]| == |s| || s[|parts[0]|] == sep
    decreases |s|
  {
    if |s| == 0 then [""]
    else
      var rest := Split(s[1..], sep);
      if s[0] == sep then [""] + rest
      else [[s[0]] + rest[0]] + rest[1..]
  }

  /** `parts.join(sep)`. */
  function Join(parts: seq<string>, sep: char): string
    decreases |parts|
  {
    if |parts| == 0 then ""
    else if |parts| == 1 then parts[0]
    else parts[0] + [sep] + Join(parts[1..], sep)
  }

  /** Joining the pieces of a split restores the string. */
  lemma {:induction false} JoinSplit(s: string, sep: char)
    ensures Join(Split(s, sep), sep) == s
    decreases |s|
  {
    if |s| > 0 {
      var rest := Split(s[1..], sep);
      JoinSplit(s[1..], sep);
      if s[0] == sep {
        assert Split(s, sep) == [""] + rest;
        assert Split(s, sep)[1..] == rest;
      } else {
        var parts := Split(s, sep);
        assert parts == [[s[0]] + rest[0]] + rest[1..];
        if |rest| == 1 {
          assert parts == [[s[0]] + rest[0]];
        } else {
          assert parts[1..] == rest[1..];
          assert Join(rest, sep) == rest[0] + [sep] + Join(rest[1..], sep);
        }
        assert s == [s[0]] + s[1..];
      }
    }
  }

  /** Splitting at the first separator: a separator-free head becomes the
      first piece and the split continues after the separator. */
  lemma {:induction false} SplitAtSeparator(a: string, sep: char, b: string)
    requires sep !in a
    ensures Split(a + [sep] + b, sep) == [a] + Split(b, sep)
    decreases |a|
  {
    var s := a + [sep] + b;
    if |a| == 0 {
      assert s[1..] == b;
    } else {
      assert s[1..] == a[1..] + [sep] + b;
      SplitAtSeparator(a[1..], sep, b);
      assert [s[0]] + a[1..] == a;
    }
  }

  /** A separator-free string is its own single piece. */
  lemma {:induction false} SplitNoSeparator(a: string, sep: char)
    requires sep !in a
    ensures Split(a, sep) == [a]
    decreases |a|
  {
    if |a| > 0 {
      SplitNoSeparator(a[1..], sep);
      assert [a[0]] + a[1..] == a;
    }
  }

  /** Splitting the join of separator-free pieces gives the pieces back. */
  lemma {:induction false} SplitJoin(parts: seq<string>, sep: char)
    requires |parts| >= 1
    requires forall i :: 0 <= i < |parts| ==> sep !in parts[i]
    ensures Split(Join(parts, sep), sep) == parts
    decreases |parts|
  {
    if |parts| == 1 {
      SplitNoSeparator(parts[0], sep);
    } else {
      SplitJoin(parts[1..], sep);
      SplitAtSeparator(parts[0], sep, Join(parts[1..], sep));
      assert [parts[0]] + parts[1..] == parts;
    }
  }
}

=== FILE: life_event_controller.dfy ===
/** Life-event intake and listing (controllers/lifeEventController.js).

    Date handling (`new Date(...)`, its validity test and the `en-CA` locale
    formatting) is a parameter: `parseDate` maps a truthy `event_date` value
    to the calendar day it denotes, or to `None` when the date is invalid;
    `today` is the day used when no date is given. */
module LifeEventController {
  import opened Wrappers
  import opened Js
  import opened Ordering
  import opened Tables

  type EventId = int

  /** A calendar day, ordered as the database's DATE column orders it. */
  type Date = int

  /** A row of the lifeevents table. `event_type` is stored as given, so it
      may be any body value. */
  datatype LifeEvent = LifeEvent(owner: UserId, title: string, description: string,
                                 eventType: JsValue, eventDate: Date, createdAt: Timestamp)

  type Events = map<EventId, LifeEvent>

  /** The request body fields. `Undefined` is a field that was left out. */
  datatype LifeEventBody = LifeEventBody(title: JsValue, description: JsValue,
                                         eventType: JsValue, eventDate: JsValue)

  const DefaultTitle: string := "Untitled Event"
  const DefaultDescription: string := ""
  const DefaultEventType: string := "general"

  /** A destructuring default applies only to a missing field, not to `null`. */
  function WithDefault(v: JsValue, default: string): JsValue {
    if v.Undefined? then Str(default) else v
  }

  /** `!user_id` is false: the caller's id is present and not 0. */
  predicate HasUser(userId: Option<UserId>) {
    userId.Some? && userId.value != 0
  }

  datatype CreateResponse =
    | MissingUser                                  // 401
    | TitleRequired                                // 400
    | InvalidDate                                  // 400
    | SaveFailed                                   // 500: a `trim` or the insert threw
    | EventCreated(eventId: EventId, event: LifeEvent)  // 201

  datatype Intake = Intake(response: CreateResponse, events: Events)

  /** `formatDateForPostgres`: today for a falsy value, else the parsed day. */
  function EventDay(v: JsValue, parseDate: JsValue -> Option<Date>, today: Date): Option<Date> {
    if Truthy(v) then parseDate(v) else Some(today)
  }

  /** The default title survives `trim()` unchanged. */
  lemma DefaultTitleKept()
    ensures Trim(DefaultTitle) == DefaultTitle && DefaultTitle != []
  {
    TrimOfTrimmed(DefaultTitle);
  }

  /** The outcome of `title.trim()` and the `!title.trim()` check. */
  datatype TitleVerdict = TitleThrows | TitleBlank | TitleKept(text: string)

  /** The title after defaulting, trimming and the emptiness check: a
      non-string title throws, a blank string is refused, and what is kept is
      never empty. */
  function CheckTitle(title: JsValue): (v: TitleVerdict)
    ensures v.TitleThrows? <==> title.Null? || title.NonString?
    ensures v.TitleBlank? <==> title.Str? && AllWhitespace(title.text)
    ensures title.Undefined? ==> v == TitleKept(DefaultTitle)
    ensures title.Str? && v.TitleKept? ==> v.text == Trim(title.text)
    ensures v.TitleKept? ==> v.text != [] && !IsWhitespace(v.text[0]) && !IsWhitespace(v.text[|v.text| - 1])
  {
    DefaultTitleKept();
    match WithDefault(title, DefaultTitle)
    case Str(t) => if Trim(t) == [] then TitleBlank else TitleKept(Trim(t))
    case _ => TitleThrows
  }

  /** The description after defaulting and `description.trim()`; `None` when
      the `trim()` throws on a non-string value. */
  function DescriptionOf(description: JsValue): (d: Option<string>)
    ensures d.None? <==> description.Null? || description.NonString?
    ensures description.Undefined? ==> d == Some(DefaultDescription)
    ensures description.Str? ==> d == Some(Trim(description.text))
  {
    match WithDefault(description, DefaultDescription)
    case Str(t) => Some(Trim(t))
    case _ => None
  }

  /** `createLifeEvent` (controllers/lifeEventController.js lines 14-45). */
  function CreateLifeEvent(events: Events, userId: Option<UserId>, body: LifeEventBody,
                           parseDate: JsValue -> Option<Date>, today: Date,
                           id: EventId, now: Timestamp, insertSucceeds: bool): (r: Intake)
    ensures r.response.MissingUser? <==> !HasUser(userId)
    ensures !r.response.EventCreated? ==> r.events == events
    ensures r.response.EventCreated? ==>
              && id !in events && r.response.eventId == id
              && r.events == events[id := r.response.event]
              && HasUser(userId) && r.response.event.owner == userId.value
  {
    if !HasUser(userId) then Intake(MissingUser, events)
    else match CheckTitle(body.title)
      case TitleThrows => Intake(SaveFailed, events)
      case TitleBlank => Intake(TitleRequired, events)
      case TitleKept(title) =>
        match EventDay(body.eventDate, parseDate, today)
        case None => Intake(InvalidDate, events)
        case Some(day) =>
          match DescriptionOf(body.description)
          case None => Intake(SaveFailed, events)
          case Some(description) =>
            if !insertSucceeds || id in events then Intake(SaveFailed, events)
            else
              var event := LifeEvent(userId.value, title, description,
                                     WithDefault(body.eventType, DefaultEventType), day, now);
              Intake(EventCreated(id, event), events[id := event])
  }

  /** A `null` (or other non-string) title is not defaulted, and its
      `trim()` throws: the request fails with 500 once a user is present. */
  lemma NonStringTitleFails(events: Events, userId: Option<UserId>, body: LifeEventBody,
                            parseDate: JsValue -> Option<Date>, today: Date,
                            id: EventId, now: Timestamp, insertSucceeds: bool)
    requires HasUser(userId)
    requires body.title.Null? || body.title.NonString?
    ensures CreateLifeEvent(events, userId, body, parseDate, today, id, now, insertSucceeds).response == SaveFailed
  {
  }

  /** With a user present, the title is rejected exactly when it was sent as
      a string of whitespace only; a missing title takes the default. */
  lemma BlankTitleRejected(events: Events, userId: Option<UserId>, body: LifeEventBody,
                           parseDate: JsValue -> Option<Date>, today: Date,
                           id: EventId, now: Timestamp, insertSucceeds: bool)
    requires HasUser(userId)
    ensures CreateLifeEvent(events, userId, body, parseDate, today, id, now, insertSucceeds).response == TitleRequired
            <==> body.title.Str? && AllWhitespace(body.title.text)
  {
  }

  /** A title that passes is followed by the date check: an invalid date is
      rejected with 400 only when a truthy date was sent and does not parse. */
  lemma InvalidDateRejected(events: Events, userId: Option<UserId>, body: LifeEventBody,
                            parseDate: JsValue -> Option<Date>, today: Date,
                            id: EventId, now: Timestamp, insertSucceeds: bool)
    requires HasUser(userId)
    requires body.title.Undefined? || (body.title.Str? && !AllWhitespace(body.title.text))
    ensures CreateLifeEvent(events, userId, body, parseDate, today, id, now, insertSucceeds).response == InvalidDate
            <==> Truthy(body.eventDate) && parseDate(body.eventDate).None?
  {
  }

  /** The request passes every check `createLifeEvent` makes before the
      insert: a caller, an acceptable title, a usable date and a string (or
      missing) description. */
  predicate Storable(userId: Option<UserId>, body: LifeEventBody, parseDate: JsValue -> Option<Date>) {
    && HasUser(userId)
    && (body.title.Undefined? || (body.title.Str? && !AllWhitespace(body.title.text)))
    && (!Truthy(body.eventDate) || parseDate(body.eventDate).Some?)
    && (body.description.Undefined? || body.description.Str?)
  }

  /** The path a storable request takes through `CreateLifeEvent`. */
  lemma CreatedPath(events: Events, userId: Option<UserId>, body: LifeEventBody,
                    parseDate: JsValue -> Option<Date>, today: Date,
                    id: EventId, now: Timestamp, insertSucceeds: bool)
    requires Storable(userId, body, parseDate) && insertSucceeds && id !in events
    ensures && CheckTitle(body.title).TitleKept?
            && EventDay(body.eventDate, parseDate, today).Some?
            && DescriptionOf(body.description).Some?
            && CreateLifeEvent(events, userId, body, parseDate, today, id, now, insertSucceeds).response
               == EventCreated(id, LifeEvent(userId.value, CheckTitle(body.title).text,
                                             DescriptionOf(body.description).value,
                                             WithDefault(body.eventType, DefaultEventType),
                                             EventDay(body.eventDate, parseDate, today).value, now))
  {
  }

  /** An event is created exactly when the request passes every check and
      the insert succeeds under a fresh id. */
  lemma CreatedExactly(events: Events, userId: Option<UserId>, body: LifeEventBody,
                       parseDate: JsValue -> Option<Date>, today: Date,
                       id: EventId, now: Timestamp, insertSucceeds: bool)
    ensures CreateLifeEvent(events, userId, body, parseDate, today, id, now, insertSucceeds).response.EventCreated?
            <==> Storable(userId, body, parseDate) && insertSucceeds && id !in events
  {
    if Storable(userId, body, parseDate) && insertSucceeds && id !in events {
      CreatedPath(events, userId, body, parseDate, today, id, now, insertSucceeds);
    } else if !HasUser(userId) {
    } else if !CheckTitle(body.title).TitleKept? {
      assert !(body.title.Undefined? || (body.title.Str? && !AllWhitespace(body.title.text)));
    } else if EventDay(body.eventDate, parseDate, today).None? {
    } else if DescriptionOf(body.description).None? {
    } else {
      assert !insertSucceeds || id in events;
    }
  }

  /** A created event stores the trimmed title, or the default title when
      none was sent; either way the stored title is not empty. */
  lemma CreatedTitle(events: Events, userId: Option<UserId>, body: LifeEventBody,
                     parseDate: JsValue -> Option<Date>, today: Date,
                     id: EventId, now: Timestamp, insertSucceeds: bool)
    requires Storable(userId, body, parseDate) && insertSucceeds && id !in events
    ensures var r := CreateLifeEvent(events, userId, body, parseDate, today, id, now, insertSucceeds).response;
            && r.EventCreated?
            && r.event.owner == userId.value
            && r.event.title == (if body.title.Undefined? then DefaultTitle else Trim(body.title.text))
            && r.event.title != []
  {
    CreatedPath(events, userId, body, parseDate, today, id, now, insertSucceeds);
  }

  /** A created event stores the trimmed description (empty when none was
      sent) and the event type exactly as sent (or the default type). */
  lemma CreatedDescriptionAndType(events: Events, userId: Option<UserId>, body: LifeEventBody,
                                  parseDate: JsValue -> Option<Date>, today: Date,
                                  id: EventId, now: Timestamp, insertSucceeds: bool)
    requires Storable(userId, body, parseDate) && insertSucceeds && id !in events
    ensures var r := CreateLifeEvent(events, userId, body, parseDate, today, id, now, insertSucceeds).response;
            && r.EventCreated?
            && r.event.description == (if body.description.Undefined? then DefaultDescription else Trim(body.description.text))
            && r.event.eventType == (if body.eventType.Undefined? then Str(DefaultEventType) else body.eventType)
  {
    CreatedPath(events, userId, body, parseDate, today, id, now, insertSucceeds);
  }

  /** A created event is dated by the day sent, or today when none was sent,
      and stamped with the insertion time. */
  lemma CreatedDate(events: Events, userId: Option<UserId>, body: LifeEventBody,
                    parseDate: JsValue -> Option<Date>, today: Date,
                    id: EventId, now: Timestamp, insertSucceeds: bool)
    requires Storable(userId, body, parseDate) && insertSucceeds && id !in events
    ensures var r := CreateLifeEvent(events, userId, body, parseDate, today, id, now, insertSucceeds).response;
            && r.EventCreated?
            && (Truthy(body.eventDate) ==> parseDate(body.eventDate) == Some(r.event.eventDate))
            && (!Truthy(body.eventDate) ==> r.event.eventDate == today)
            && r.event.createdAt == now
  {
    CreatedPath(events, userId, body, parseDate, today, id, now, insertSucceeds);
  }

  /** The columns the listing selects. */
  datatype EventRow = EventRow(eventId: EventId, title: string, description: string,
                               eventType: JsValue, eventDate: Date, createdAt: Timestamp)

  function RowOf(id: EventId, e: LifeEvent): EventRow {
    EventRow(id, e.title, e.description, e.eventType, e.eventDate, e.createdAt)
  }

  /** The listing order: later day first, then later creation first. */
  predicate ListedBefore(a: EventRow, b: EventRow) {
    a.eventDate > b.eventDate || (a.eventDate == b.eventDate && a.createdAt >= b.createdAt)
  }

  /** The ids of the caller's events, each once, in listing order. */
  function OwnedInListingOrder(events: Events, user: UserId): (ids: seq<EventId>)
    ensures forall i :: 0 <= i < |ids| ==> ids[i] in events && events[ids[i]].owner == user
    ensures forall id :: id in events && events[id].owner == user ==> id in ids
    ensures forall i, j :: 0 <= i < j < |ids| ==>
              ids[i] != ids[j] && ListedBefore(RowOf(ids[i], events[ids[i]]), RowOf(ids[j], events[ids[j]]))
  {
    var owned := set id | id in events && events[id].owner == user;
    var ranks := map id | id in events :: Rank(events[id].eventDate, events[id].createdAt);
    var ids := ByRankDesc(owned, ranks);
    assert forall i, j :: 0 <= i < j < |ids| ==>
             ListedBefore(RowOf(ids[i], events[ids[i]]), RowOf(ids[j], events[ids[j]])) by {
      forall i, j | 0 <= i < j < |ids|
        ensures ListedBefore(RowOf(ids[i], events[ids[i]]), RowOf(ids[j], events[ids[j]]))
      {
        assert AtLeast(ranks[ids[i]], ranks[ids[j]]);
      }
    }
    ids
  }

  lemma RowsFollowIds(events: Events, user: UserId, ids: seq<EventId>, rows: seq<EventRow>)
    requires forall i :: 0 <= i < |ids| ==> ids[i] in events && events[ids[i]].owner == user
    requires forall id :: id in events && events[id].owner == user ==> id in ids
    requires forall i, j :: 0 <= i < j < |ids| ==>
               ids[i] != ids[j] && ListedBefore(RowOf(ids[i], events[ids[i]]), RowOf(ids[j], events[ids[j]]))
    requires |rows| == |ids|
    requires forall i :: 0 <= i < |ids| ==> rows[i] == RowOf(ids[i], events[ids[i]])
    ensures forall i :: 0 <= i < |rows| ==> rows[i] == RowOf(ids[i], events[ids[i]])
    ensures forall id :: id in events && events[id].owner == user ==>
              exists i :: 0 <= i < |rows| && rows[i].eventId == id
    ensures forall i, j :: 0 <= i < j < |rows| ==> rows[i].eventId != rows[j].eventId && ListedBefore(rows[i], rows[j])
  {
    forall id | id in events && events[id].owner == user
      ensures exists i :: 0 <= i < |rows| && rows[i].eventId == id
    {
      var i :| 0 <= i < |ids| && ids[i] == id;
      assert rows[i].eventId == id;
    }
  }

  datatype ListResponse = ListUnauthorized | EventList(rows: seq<EventRow>)

  /** `getLifeEventsByUser` (controllers/lifeEventController.js lines 50-70):
      the caller's events, latest day first and, within a day, latest created
      first. */
  function GetLifeEventsByUser(events: Events, userId: Option<UserId>): (r: ListResponse)
    ensures r.ListUnauthorized? <==> !HasUser(userId)
    ensures r.EventList? ==>
              && (forall i :: 0 <= i < |r.rows| ==>
                    r.rows[i].eventId in events && events[r.rows[i].eventId].owner == userId.value
                    && r.rows[i] == RowOf(r.rows[i].eventId, events[r.rows[i].eventId]))
              && (forall id :: id in events && events[id].owner == userId.value ==>
                    exists i :: 0 <= i < |r.rows| && r.rows[i].eventId == id)
              && (forall i, j :: 0 <= i < j < |r.rows| ==>
                    r.rows[i].eventId != r.rows[j].eventId && ListedBefore(r.rows[i], r.rows[j]))
  {
    if !HasUser(userId) then ListUnauthorized
    else
      var ids := OwnedInListingOrder(events, userId.value);
      var rows := Project(ids, events, RowOf);
      RowsFollowIds(events, userId.value, ids, rows);
      EventList(rows)
  }

  /** An event is listed for its owner. */
  lemma ListedForOwner(events: Events, id: EventId)
    requires id in events && events[id].owner != 0
    ensures exists i :: 0 <= i < |GetLifeEventsByUser(events, Some(events[id].owner)).rows|
                        && GetLifeEventsByUser(events, Some(events[id].owner)).rows[i].eventId == id
  {
    var mine := GetLifeEventsByUser(events, Some(events[id].owner));
    assert mine.EventList?;
  }

  /** An event is listed for no user but its owner. */
  lemma NotListedForOthers(events: Events, id: EventId, other: UserId)
    requires id in events && other != 0 && other != events[id].owner
    ensures forall i :: 0 <= i < |GetLifeEventsByUser(events, Some(other)).rows| ==>
                        GetLifeEventsByUser(events, Some(other)).rows[i].eventId != id
  {
    var theirs := GetLifeEventsByUser(events, Some(other));
    forall i | 0 <= i < |theirs.rows|
      ensures theirs.rows[i].eventId != id
    {
      assert events[theirs.rows[i].eventId].owner == other;
    }
  }

  /** A created event shows up in its owner's listing and in nobody else's. */
  lemma CreatedEventListedForOwnerOnly(events: Events, userId: Option<UserId>, body: LifeEventBody,
                                       parseDate: JsValue -> Option<Date>, today: Date,
                                       id: EventId, now: Timestamp, insertSucceeds: bool,
                                       other: UserId)
    requires Storable(userId, body, parseDate) && insertSucceeds && id !in events
    requires other != 0 && Some(other) != userId
    ensures var after := CreateLifeEvent(events, userId, body, parseDate, today, id, now, insertSucceeds).events;
            && (exists i :: 0 <= i < |GetLifeEventsByUser(after, userId).rows|
                            && GetLifeEventsByUser(after, userId).rows[i].eventId == id)
            && (forall i :: 0 <= i < |GetLifeEventsByUser(after, Some(other)).rows| ==>
                            GetLifeEventsByUser(after, Some(other)).rows[i].eventId != id)
  {
    CreatedPath(events, userId, body, parseDate, today, id, now, insertSucceeds);
    var r := CreateLifeEvent(events, userId, body, parseDate, today, id, now, insertSucceeds);
    assert r.events[id] == r.response.event;
    ListedForOwner(r.events, id);
    NotListedForOthers(r.events, id, other);
  }
}

=== FILE: myth_controller.dfy ===
/** The myth endpoints: `createMyth` turns a life-event description into a
    stored myth by asking a text generator for a deity and a narrative, and
    `getMyths` / `getMythById` read the caller's myths back.

    The generator (an OpenAI chat completion) is a parameter: a function from
    the user prompt to either a reply text or a failure, where a failure
    stands for every error the call or the reading of its reply can throw.
    The database is the map `MythTable`; the insert either succeeds or
    throws. */
module MythController {
  import opened Wrappers
  import opened Js
  import opened OracleReply
  import opened Ordering
  import opened Tables

  type MythId = int

  /** The deities the generator is told to choose from, and the only titles
      a successful generation may store. */
  const AllowedGods: seq<string> := [
    "Aphrodite", "Apollo", "Ares", "Artemis", "Atalanta", "Athena", "Demeter",
    "Hades", "Hecate", "Hephaestus", "Hera", "Hercules", "Hermes", "Odysseus",
    "Orpheus", "Persephone", "Perseus", "Psyche", "The Fates", "Zeus"
  ]

  /** The deity substituted for one outside `AllowedGods`. */
  const FallbackDeity: string := "Zeus"

  /** The title used when the request carries none. */
  const DefaultMythTitle: string := "A Mythic Tale"

  /** The narrative stored when the generation call fails. */
  const OracleSilent: string :=
    "The Oracle fell silent for a moment, yet the mortal\U{2019}s tale still echoed with mythic promise."

  /** A row of the Myths table. The owner is `req.user.user_id`, which a
      verified token need not carry: `None` is a NULL `user_id`. */
  datatype Myth = Myth(owner: Option<UserId>, title: string, narrative: string, createdAt: Timestamp)

  /** `WHERE user_id = $1`: the row's owner equals the caller's id. A missing
      caller id binds NULL, which equals nothing, not even a NULL owner. */
  predicate OwnedBy(m: Myth, user: Option<UserId>) {
    user.Some? && m.owner == user
  }

  type MythTable = map<MythId, Myth>

  /** The columns the myth queries return. */
  datatype MythRow = MythRow(mythId: MythId, title: string, narrative: string, createdAt: Timestamp)

  function RowOf(id: MythId, m: Myth): MythRow {
    MythRow(id, m.title, m.narrative, m.createdAt)
  }

  /** Outcome of the generation call. */
  datatype GeneratorOutcome = GeneratorFailed | Reply(content: string)

  /** The request body of `createMyth`. */
  datatype MythRequest = MythRequest(event: JsValue, title: Option<string>)

  datatype CreateResponse =
    | EventRequired             // 400: no event text
    | Created(myth: MythRow)    // 201
    | CreateFailed              // 500: the insert threw
    | Crashed                   // `event.trim` threw outside the try block

  /** A response, the table afterwards, and the prompts sent to the generator. */
  datatype Creation = Creation(response: CreateResponse, myths: MythTable, prompts: seq<string>)

  /** The user prompt embeds the event text verbatim. */
  function UserPrompt(event: string): (prompt: string)
    ensures |prompt| == |event| + 14
    ensures prompt[..13] == "Life Event: \""
    ensures prompt[13..13 + |event|] == event
    ensures prompt[13 + |event|] == '"'
  {
    "Life Event: \"" + event + "\""
  }

  /** The stored (title, narrative) pair. */
  datatype Tale = Tale(title: string, narrative: string)

  /** The deity a successful generation stores: the parsed deity when it is
      listed, the fallback deity otherwise. */
  function ValidDeity(deity: string): (d: string)
    ensures d in AllowedGods
    ensures deity in AllowedGods ==> d == deity
    ensures deity !in AllowedGods ==> d == FallbackDeity
  {
    if deity in AllowedGods then deity else FallbackDeity
  }

  /** From the default title and the generator's outcome to the pair that is
      stored (controllers/mythController.js lines 57-99). */
  function Finalize(defaultTitle: string, outcome: GeneratorOutcome): (t: Tale)
    ensures outcome.GeneratorFailed? ==> t == Tale(defaultTitle, OracleSilent)
    ensures outcome.Reply? ==> t.title in AllowedGods
  {
    match outcome
    case GeneratorFailed => Tale(defaultTitle, OracleSilent)
    case Reply(content) =>
      var out := Trim(content);
      Tale(ValidDeity(DeityOf(out, defaultTitle)), NarrativeOf(out))
  }

  /** A reply in the requested layout yields the named deity as the title
      and the quoted story, quote marks kept, as the narrative. */
  lemma CanonicalReplyStored(defaultTitle: string)
    ensures Finalize(defaultTitle, Reply(CanonicalReply("Demeter", "Once")))
            == Tale("Demeter", "\"Once\"")
  {
    CanonicalFields(defaultTitle);
    StoredFromFields(defaultTitle, CanonicalReply("Demeter", "Once"), "Demeter", "\"Once\"");
  }

  /** A trimmed reply whose deity field is a listed deity keeps both fields. */
  lemma StoredFromFields(defaultTitle: string, content: string, deity: string, story: string)
    requires Trim(content) == content && deity in AllowedGods
    requires DeityOf(content, defaultTitle) == deity && NarrativeOf(content) == story
    ensures Finalize(defaultTitle, Reply(content)) == Tale(deity, story)
  {
  }

  /** `event` is absent, falsy, or a string that is empty after trimming. */
  predicate EventMissing(event: JsValue) {
    !Truthy(event) || (event.Str? && AllWhitespace(event.text))
  }

  /** `createMyth` (controllers/mythController.js lines 46-121). */
  function CreateMyth(myths: MythTable, user: Option<UserId>, req: MythRequest,
                      generate: string -> GeneratorOutcome,
                      insertSucceeds: bool, id: MythId, now: Timestamp): (c: Creation)
    ensures c.response.EventRequired? <==> EventMissing(req.event)
    ensures c.response.Crashed? <==> req.event.NonString? && req.event.truthy
    ensures c.response.EventRequired? || c.response.Crashed? ==> c.prompts == []
    ensures !c.response.EventRequired? && !c.response.Crashed? ==>
              req.event.Str? && c.prompts == [UserPrompt(req.event.text)]
    ensures !c.response.Created? ==> c.myths == myths
    ensures c.response.Created? ==>
              && id !in myths
              && c.myths == myths[id := Myth(user, c.response.myth.title, c.response.myth.narrative, now)]
              && c.response.myth.mythId == id && c.response.myth.createdAt == now
    ensures c.response.Created? ==>
              && req.event.Str?
              && Tale(c.response.myth.title, c.response.myth.narrative)
                 == Finalize(OrElse(req.title, DefaultMythTitle), generate(UserPrompt(req.event.text)))
  {
    if !Truthy(req.event) then Creation(EventRequired, myths, [])
    else if !req.event.Str? then Creation(Crashed, myths, [])
    else if Trim(req.event.text) == [] then Creation(EventRequired, myths, [])
    else
      var prompt := UserPrompt(req.event.text);
      var tale := Finalize(OrElse(req.title, DefaultMythTitle), generate(prompt));
      if !insertSucceeds || id in myths then Creation(CreateFailed, myths, [prompt])
      else
        Creation(Created(MythRow(id, tale.title, tale.narrative, now)),
                 myths[id := Myth(user, tale.title, tale.narrative, now)], [prompt])
  }

  /** When the generator replies, the stored title is a listed deity. */
  lemma TitleAllowedAfterReply(myths: MythTable, user: Option<UserId>, req: MythRequest,
                               generate: string -> GeneratorOutcome, id: MythId, now: Timestamp)
    requires req.event.Str? && !AllWhitespace(req.event.text) && id !in myths
    requires generate(UserPrompt(req.event.text)).Reply?
    ensures var r := CreateMyth(myths, user, req, generate, true, id, now).response;
            r.Created? && r.myth.title in AllowedGods
  {
  }

  /** A myth is created exactly when the event is a non-blank string and the
      insert succeeds under a fresh id, whatever the generator does. */
  lemma MythCreatedExactly(myths: MythTable, user: Option<UserId>, req: MythRequest,
                           generate: string -> GeneratorOutcome,
                           insertSucceeds: bool, id: MythId, now: Timestamp)
    ensures CreateMyth(myths, user, req, generate, insertSucceeds, id, now).response.Created?
            <==> req.event.Str? && !AllWhitespace(req.event.text) && insertSucceeds && id !in myths
  {
  }

  /** When the generator fails, the request still succeeds (if the insert
      does) with the default title and the fixed apology narrative. */
  lemma FallbackAfterFailure(myths: MythTable, user: Option<UserId>, req: MythRequest,
                             generate: string -> GeneratorOutcome, id: MythId, now: Timestamp)
    requires req.event.Str? && !AllWhitespace(req.event.text)
    requires generate(UserPrompt(req.event.text)).GeneratorFailed?
    requires id !in myths
    ensures var c := CreateMyth(myths, user, req, generate, true, id, now);
            c.response == Created(MythRow(id, OrElse(req.title, DefaultMythTitle), OracleSilent, now))
  {
  }

  /** A non-blank reply always yields a non-empty narrative. */
  lemma NarrativeNonEmptyAfterReply(myths: MythTable, user: Option<UserId>, req: MythRequest,
                                    generate: string -> GeneratorOutcome, id: MythId, now: Timestamp)
    requires req.event.Str? && !AllWhitespace(req.event.text) && id !in myths
    requires generate(UserPrompt(req.event.text)).Reply?
    requires !AllWhitespace(generate(UserPrompt(req.event.text)).content)
    ensures var r := CreateMyth(myths, user, req, generate, true, id, now).response;
            r.Created? && r.myth.narrative != []
  {
    NarrativeNonEmpty(generate(UserPrompt(req.event.text)).content);
  }

  /** How the title of a reply is chosen: the trimmed deity capture if it is
      listed; with no deity header, the default title if it is listed; and
      the fallback deity in every other case. */
  lemma ReplyTitle(defaultTitle: string, content: string)
    ensures var out := Trim(content);
            var t := Finalize(defaultTitle, Reply(content));
            match Exec(out, NamePattern)
            case Some(m) =>
              var d := Trim(Captured(out, m));
              (d in AllowedGods ==> t.title == d) && (d !in AllowedGods ==> t.title == FallbackDeity)
            case None =>
              (defaultTitle in AllowedGods ==> t.title == defaultTitle)
              && (defaultTitle !in AllowedGods ==> t.title == FallbackDeity)
  {
  }

  /** How the narrative of a reply is chosen: the trimmed text from the
      start of the narrative capture to the end of the trimmed reply, or the
      whole trimmed reply when it has no narrative header. */
  lemma ReplyNarrative(defaultTitle: string, content: string)
    ensures var out := Trim(content);
            var t := Finalize(defaultTitle, Reply(content));
            match Exec(out, NarrativePattern)
            case Some(m) => t.narrative == Trim(out[m.capStart..])
            case None => t.narrative == out
  {
  }

  /** A reply naming a quoted deity, `Name of Greek/Goddess: "Athena"`,
      stores the fallback deity: the capture is a single space. */
  lemma QuotedDeityBecomesFallback(defaultTitle: string)
    ensures Finalize(defaultTitle, Reply(NamePattern.header + " \"Athena\"")).title == FallbackDeity
  {
    var s := NamePattern.header + " \"Athena\"";
    QuotedReplyIsTrimmed();
    QuotedNameCapturesSpace(defaultTitle);
    EmptyNotAllowed();
    assert Finalize(defaultTitle, Reply(s)).title == ValidDeity(DeityOf(s, defaultTitle));
  }

  lemma QuotedReplyIsTrimmed()
    ensures var s := NamePattern.header + " \"Athena\""; Trim(s) == s
  {
    var s := NamePattern.header + " \"Athena\"";
    assert s[0] == 'N' && s[|s| - 1] == '"';
    TrimOfTrimmed(s);
  }

  lemma EmptyNotAllowed()
    ensures "" !in AllowedGods
  {
  }

  /** `getMyths` (controllers/mythController.js lines 124-145): the caller's
      myths, newest first. */
  function GetMyths(myths: MythTable, user: Option<UserId>): (rows: seq<MythRow>)
    ensures forall i :: 0 <= i < |rows| ==>
              rows[i].mythId in myths && OwnedBy(myths[rows[i].mythId], user)
              && rows[i] == RowOf(rows[i].mythId, myths[rows[i].mythId])
    ensures forall id :: id in myths && OwnedBy(myths[id], user) ==>
              exists i :: 0 <= i < |rows| && rows[i].mythId == id
    ensures forall i, j :: 0 <= i < j < |rows| ==>
              rows[i].mythId != rows[j].mythId && rows[i].createdAt >= rows[j].createdAt
  {
    var ids := OwnedNewestFirst(myths, user);
    var rows := Project(ids, myths, RowOf);
    RowsFollowIds(myths, user, ids, rows);
    rows
  }

  /** The listing's properties carried from its ids over to its rows. */
  lemma RowsFollowIds(myths: MythTable, user: Option<UserId>, ids: seq<MythId>, rows: seq<MythRow>)
    requires forall i :: 0 <= i < |ids| ==> ids[i] in myths && OwnedBy(myths[ids[i]], user)
    requires forall id :: id in myths && OwnedBy(myths[id], user) ==> id in ids
    requires forall i, j :: 0 <= i < j < |ids| ==>
               ids[i] != ids[j] && myths[ids[i]].createdAt >= myths[ids[j]].createdAt
    requires |rows| == |ids|
    requires forall i :: 0 <= i < |ids| ==> rows[i] == RowOf(ids[i], myths[ids[i]])
    ensures forall id :: id in myths && OwnedBy(myths[id], user) ==>
              exists i :: 0 <= i < |rows| && rows[i].mythId == id
    ensures forall i, j :: 0 <= i < j < |rows| ==>
              rows[i].mythId != rows[j].mythId && rows[i].createdAt >= rows[j].createdAt
  {
    forall id | id in myths && OwnedBy(myths[id], user)
      ensures exists i :: 0 <= i < |rows| && rows[i].mythId == id
    {
      var i :| 0 <= i < |ids| && ids[i] == id;
      assert rows[i].mythId == id;
    }
    forall i, j | 0 <= i < j < |rows|
      ensures rows[i].mythId != rows[j].mythId && rows[i].createdAt >= rows[j].createdAt
    {
      assert rows[i] == RowOf(ids[i], myths[ids[i]]) && rows[j] == RowOf(ids[j], myths[ids[j]]);
    }
  }

  /** The ids of the caller's myths, each once, newest first. */
  function OwnedNewestFirst(myths: MythTable, user: Option<UserId>): (ids: seq<MythId>)
    ensures forall i :: 0 <= i < |ids| ==> ids[i] in myths && OwnedBy(myths[ids[i]], user)
    ensures forall id :: id in myths && OwnedBy(myths[id], user) ==> id in ids
    ensures forall i, j :: 0 <= i < j < |ids| ==>
              ids[i] != ids[j] && myths[ids[i]].createdAt >= myths[ids[j]].createdAt
  {
    var owned := set id | id in myths && OwnedBy(myths[id], user);
    var ranks := map id | id in myths :: Rank(myths[id].createdAt, 0);
    var ids := ByRankDesc(owned, ranks);
    assert forall i, j :: 0 <= i < j < |ids| ==> myths[ids[i]].createdAt >= myths[ids[j]].createdAt by {
      forall i, j | 0 <= i < j < |ids|
        ensures myths[ids[i]].createdAt >= myths[ids[j]].createdAt
      {
        assert AtLeast(ranks[ids[i]], ranks[ids[j]]);
      }
    }
    ids
  }

  datatype Lookup = MalformedId | MythNotFound | Found(myth: MythRow)

  /** `getMythById` (controllers/mythController.js lines 148-173). `id` is the
      path parameter as the database reads it: `None` when it is not an
      integer, which makes the query throw (500). */
  function GetMythById(myths: MythTable, user: Option<UserId>, id: Option<MythId>): (r: Lookup)
    ensures r.MalformedId? <==> id.None?
    ensures r.MythNotFound? <==> id.Some? && (id.value !in myths || !OwnedBy(myths[id.value], user))
    ensures r.Found? ==> r.myth == RowOf(id.value, myths[id.value]) && OwnedBy(myths[id.value], user)
  {
    match id
    case None => MalformedId
    case Some(k) =>
      if k in myths && OwnedBy(myths[k], user) then Found(RowOf(k, myths[k])) else MythNotFound
  }

  /** A myth is in the caller's listing exactly when it can be read by id. */
  lemma ListedIffFound(myths: MythTable, user: Option<UserId>, id: MythId)
    ensures (exists i :: 0 <= i < |GetMyths(myths, user)| && GetMyths(myths, user)[i].mythId == id)
            <==> GetMythById(myths, user, Some(id)).Found?
  {
    var rows := GetMyths(myths, user);
    if GetMythById(myths, user, Some(id)).Found? {
      var i :| 0 <= i < |rows| && rows[i].mythId == id;
    }
  }

  /** A created myth can be read by its owner and by nobody else; created
      by a caller without an id, it can be read by nobody. */
  lemma CreatedMythVisibleToOwnerOnly(myths: MythTable, user: Option<UserId>, req: MythRequest,
                                      generate: string -> GeneratorOutcome,
                                      id: MythId, now: Timestamp, viewer: Option<UserId>)
    requires req.event.Str? && !AllWhitespace(req.event.text) && id !in myths
    ensures var c := CreateMyth(myths, user, req, generate, true, id, now);
            GetMythById(c.myths, viewer, Some(id))
            == if viewer.Some? && viewer == user then Found(c.response.myth) else MythNotFound
  {
  }

  /** A caller whose token carries no user id lists no myths and reads none. */
  lemma NoUserSeesNothing(myths: MythTable, id: MythId)
    ensures GetMyths(myths, None) == []
    ensures GetMythById(myths, None, Some(id)) == MythNotFound
  {
  }
}

=== FILE: oracle_reply.dfy ===
/** Reading the generator's reply. The controller applies two regular
    expressions with `String.prototype.match` (no `g` flag), each of the shape

        Header \s* ( Class+ )      with the `i` flag

    `Name of Greek/Goddess:\s*([^"\n]+)` and `Narrative:\s*([\s\S]+)`.
    The first match is the one a backtracking matcher finds first: the
    leftmost start position, then the longest `\s*` that still lets the
    capture match, then the longest capture. `IsMatch` and `Preferred` state
    that declaratively; `Exec` is the search, proved to return exactly that
    match. */
module OracleReply {
  import opened Wrappers
  import opened Js

  /** The three character classes of the two patterns:
      `\s`, `[^"\n]` and `[\s\S]`. */
  datatype CharClass = Space | NoQuoteNoNewline | AnyChar

  predicate InClass(k: CharClass, c: char) {
    match k
    case Space => IsWhitespace(c)
    case NoQuoteNoNewline => c != '"' && c != '\n'
    case AnyChar => true
  }

  /** `header\s*(body+)` under the `i` flag. */
  datatype Pattern = Pattern(header: string, body: CharClass)

  const NamePattern: Pattern := Pattern("Name of Greek/Goddess:", NoQuoteNoNewline)
  const NarrativePattern: Pattern := Pattern("Narrative:", AnyChar)

  /** Where a match lies: the header starts at `start`, the `\s*` covers
      `[start + |header|, capStart)` and the capture group `[capStart, capEnd)`. */
  datatype Span = Span(start: nat, capStart: nat, capEnd: nat)

  /** The header occurs at `i`, letters compared case-insensitively. */
  predicate HeaderAt(s: string, i: nat, h: string) {
    i + |h| <= |s| && forall k :: 0 <= k < |h| ==> SameIgnoringCase(s[i + k], h[k])
  }

  /** `m` is a way for the pattern to match `s`. */
  predicate IsMatch(s: string, p: Pattern, m: Span) {
    && m.start + |p.header| <= m.capStart < m.capEnd <= |s|
    && HeaderAt(s, m.start, p.header)
    && (forall k :: m.start + |p.header| <= k < m.capStart ==> IsWhitespace(s[k]))
    && (forall k :: m.capStart <= k < m.capEnd ==> InClass(p.body, s[k]))
  }

  /** The order in which a backtracking matcher tries matches: leftmost
      first, then the greedy `\s*` longest first, then the greedy capture
      longest first. `Preferred(a, b)`: `a` is tried no later than `b`. */
  predicate Preferred(a: Span, b: Span) {
    || a.start < b.start
    || (a.start == b.start && a.capStart > b.capStart)
    || (a.start == b.start && a.capStart == b.capStart && a.capEnd >= b.capEnd)
  }

  /** End of the longest run of class `k` starting at `q`. */
  function Run(s: string, k: CharClass, q: nat): (j: nat)
    requires q <= |s|
    ensures q <= j <= |s|
    ensures forall x :: q <= x < j ==> InClass(k, s[x])
    ensures j == |s| || !InClass(k, s[j])
    decreases |s| - q
  {
    if q < |s| && InClass(k, s[q]) then Run(s, k, q + 1) else q
  }

  /** Backtracking of the greedy `\s*` that ended at `j`: the last position
      in `[q, j]` at which the capture class can start. */
  function LastBodyStart(s: string, body: CharClass, q: nat, j: nat): (c: Option<nat>)
    requires q <= j <= |s|
    ensures c.Some? ==> q <= c.value <= j && c.value < |s| && InClass(body, s[c.value])
    ensures c.Some? ==> forall x :: c.value < x <= j && x < |s| ==> !InClass(body, s[x])
    ensures c.None? ==> forall x :: q <= x <= j && x < |s| ==> !InClass(body, s[x])
    decreases j
  {
    if j < |s| && InClass(body, s[j]) then Some(j)
    else if j == q then None
    else LastBodyStart(s, body, q, j - 1)
  }

  /** The matcher run at one start position whose header is present. */
  function MatchAt(s: string, p: Pattern, i: nat): (r: Option<Span>)
    requires HeaderAt(s, i, p.header)
    ensures r.Some? ==> r.value.start == i && IsMatch(s, p, r.value)
    ensures r.Some? ==> forall m :: IsMatch(s, p, m) && m.start == i ==> Preferred(r.value, m)
    ensures r.None? ==> forall m :: IsMatch(s, p, m) ==> m.start != i
  {
    var q := i + |p.header|;
    var j := Run(s, Space, q);
    var c := LastBodyStart(s, p.body, q, j);
    assert forall m :: IsMatch(s, p, m) && m.start == i ==>
        m.capStart <= j && m.capStart < |s| && InClass(p.body, s[m.capStart]) by {
      forall m | IsMatch(s, p, m) && m.start == i {
        WhitespaceBeforeCapture(s, p, m);
      }
    }
    match c
    case None => None
    case Some(c) =>
      var e := Run(s, p.body, c);
      assert forall m :: IsMatch(s, p, m) && m.start == i && m.capStart == c ==> m.capEnd <= e by {
        forall m | IsMatch(s, p, m) && m.start == i && m.capStart == c {
          RunIsLongest(s, p.body, c, m.capEnd);
        }
      }
      Some(Span(i, c, e))
  }

  /** A match's `\s*` ends within the longest white-space run after its
      header, at a position where the capture class matches. */
  lemma WhitespaceBeforeCapture(s: string, p: Pattern, m: Span)
    requires IsMatch(s, p, m)
    ensures var j := Run(s, Space, m.start + |p.header|);
            m.capStart <= j && m.capStart < |s| && InClass(p.body, s[m.capStart])
  {
  }

  /** No run of class `k` from `c` outlasts `Run(s, k, c)`. */
  lemma RunIsLongest(s: string, k: CharClass, c: nat, e: nat)
    requires c <= e <= |s|
    requires forall x :: c <= x < e ==> InClass(k, s[x])
    ensures e <= Run(s, k, c)
  {
  }

  /** The search from position `i` onwards. */
  function ExecFrom(s: string, p: Pattern, i: nat): (r: Option<Span>)
    ensures r.Some? ==> IsMatch(s, p, r.value) && r.value.start >= i
    ensures r.Some? ==> forall m :: IsMatch(s, p, m) && m.start >= i ==> Preferred(r.value, m)
    ensures r.None? ==> forall m :: IsMatch(s, p, m) ==> m.start < i
    decreases |s| - i
  {
    if i + |p.header| >= |s| then None
    else if HeaderAt(s, i, p.header) && MatchAt(s, p, i).Some? then MatchAt(s, p, i)
    else ExecFrom(s, p, i + 1)
  }

  /** `s.match(pattern)`: the match a backtracking matcher reports. */
  function Exec(s: string, p: Pattern): (r: Option<Span>)
    ensures r.Some? ==> IsMatch(s, p, r.value)
    ensures r.Some? ==> forall m :: IsMatch(s, p, m) ==> Preferred(r.value, m)
    ensures r.None? <==> forall m :: !IsMatch(s, p, m)
  {
    ExecFrom(s, p, 0)
  }

  /** The capture group of a match. */
  function Captured(s: string, m: Span): string
    requires m.capStart <= m.capEnd <= |s|
  {
    s[m.capStart..m.capEnd]
  }

  /** A deity capture is non-empty and holds neither a quote nor a line feed. */
  lemma NameCaptureShape(s: string)
    requires Exec(s, NamePattern).Some?
    ensures var c := Captured(s, Exec(s, NamePattern).value);
            c != [] && '"' !in c && '\n' !in c
  {
    var m := Exec(s, NamePattern).value;
    var c := Captured(s, m);
    assert forall x :: 0 <= x < |c| ==> c[x] == s[m.capStart + x];
  }

  /** A narrative capture always runs to the end of the text. */
  lemma NarrativeRunsToEnd(s: string)
    requires Exec(s, NarrativePattern).Some?
    ensures Exec(s, NarrativePattern).value.capEnd == |s|
  {
    var m := Exec(s, NarrativePattern).value;
    assert IsMatch(s, NarrativePattern, Span(m.start, m.capStart, |s|));
  }

  /** The deity field (controllers/mythController.js line 83): the trimmed
      capture of the deity header, or the default title when no deity header
      matches. */
  function DeityOf(out: string, defaultTitle: string): (deity: string)
    ensures Exec(out, NamePattern).None? ==> deity == defaultTitle
    ensures Exec(out, NamePattern).Some? ==>
              var m := Exec(out, NamePattern).value;
              && deity == Trim(out[m.capStart..m.capEnd])
              && '"' !in deity && '\n' !in deity
              && TrimmedEdges(deity)
  {
    match Exec(out, NamePattern)
    case Some(m) =>
      NameCaptureShape(out);
      Trim(Captured(out, m))
    case None => defaultTitle
  }

  /** The narrative field (controllers/mythController.js line 84): the
      trimmed capture of the narrative header, or the whole reply when no
      narrative header matches. */
  function NarrativeOf(out: string): (narrative: string)
    ensures Exec(out, NarrativePattern).None? ==> narrative == out
    ensures Exec(out, NarrativePattern).Some? ==>
              var m := Exec(out, NarrativePattern).value;
              narrative == Trim(out[m.capStart..]) && TrimmedEdges(narrative)
  {
    match Exec(out, NarrativePattern)
    case Some(m) =>
      NarrativeRunsToEnd(out);
      assert Captured(out, m) == out[m.capStart..];
      TrimmedCapture(out, m)
    case None => out
  }

  /** Neither end of the text is white space. */
  predicate TrimmedEdges(t: string) {
    t == [] || (!IsWhitespace(t[0]) && !IsWhitespace(t[|t| - 1]))
  }

  /** The trimmed capture of a match. */
  function TrimmedCapture(s: string, m: Span): (t: string)
    requires m.capStart <= m.capEnd <= |s|
    ensures t == Trim(s[m.capStart..m.capEnd]) && TrimmedEdges(t)
  {
    Trim(Captured(s, m))
  }

  /** The narrative read from a trimmed, non-empty reply is non-empty: its
      capture runs to the end of the reply, whose last character is not
      white space. */
  lemma NarrativeNonEmpty(content: string)
    requires Trim(content) != []
    ensures NarrativeOf(Trim(content)) != []
  {
    NarrativeOfTrimmed(Trim(content));
  }

  lemma NarrativeOfTrimmed(out: string)
    requires out != [] && TrimmedEdges(out)
    ensures NarrativeOf(out) != []
  {
    var r := Exec(out, NarrativePattern);
    if r.Some? {
      var m := r.value;
      NarrativeRunsToEnd(out);
      assert Captured(out, m) == out[m.capStart..];
      SuffixKeepsLastCharacter(out, m.capStart);
      assert NarrativeOf(out) == Trim(Captured(out, m));
    }
  }

  /** A non-empty suffix of text that ends in a non-white-space character
      survives `trim()`. */
  lemma SuffixKeepsLastCharacter(out: string, c: nat)
    requires c < |out| && !IsWhitespace(out[|out| - 1])
    ensures Trim(out[c..]) != []
  {
    var suffix := out[c..];
    assert suffix[|suffix| - 1] == out[|out| - 1];
  }

  /** A quoted deity, `Name of Greek/Goddess: "Athena"`: the greedy `\s*`
      first takes the space, the capture cannot start at the quote, so the
      matcher gives the space back and captures just `" "`, which trims to
      the empty string. */
  lemma QuotedNameCapturesSpace(defaultTitle: string)
    ensures var s := NamePattern.header + " \"Athena\"";
            Exec(s, NamePattern) == Some(Span(0, 22, 23)) && DeityOf(s, defaultTitle) == ""
  {
    var s := NamePattern.header + " \"Athena\"";
    var h := NamePattern.header;
    assert |h| == 22;
    assert s[22] == ' ' && s[23] == '"';
    assert forall k :: 0 <= k < |h| ==> s[k] == h[k];
    var w := Span(0, 22, 23);
    assert IsMatch(s, NamePattern, w);
    var m := Exec(s, NamePattern).value;
    assert Preferred(m, w);
    assert m.start == 0;
    assert m.capStart == 22;
    assert m.capEnd == 23;
    assert Captured(s, m) == " ";
    assert Trim(" ") == "";
  }

  /** The reply layout the generator is asked for: the deity line, a blank
      line, and the narrative header with the quoted story on the next line. */
  function CanonicalReply(deity: string, story: string): string {
    NamePattern.header + " " + deity + "\n\nNarrative:\n\"" + story + "\""
  }

  /** In the canonical reply `Demeter` / `Once`, the deity header matches at
      the start and captures the name up to the line feed. */
  lemma CanonicalDeityCaptured()
    ensures var s := CanonicalReply("Demeter", "Once");
            Exec(s, NamePattern) == Some(Span(0, 23, 30))
  {
    var s := CanonicalReply("Demeter", "Once");
    var h := NamePattern.header;
    assert |h| == 22 && |s| == 49;
    assert forall k :: 0 <= k < |h| ==> s[k] == h[k];
    assert s[22] == ' ' && s[23] == 'D' && s[30] == '\n';
    var w := Span(0, 23, 30);
    assert forall k :: 23 <= k < 30 ==> s[k] != '"' && s[k] != '\n';
    assert IsMatch(s, NamePattern, w);
    var m := Exec(s, NamePattern).value;
    assert Preferred(m, w);
    assert !IsWhitespace(s[23]);
  }

  /** In the same reply, the narrative header first occurs after the deity
      line, and the capture is the quoted story with its quote marks. */
  lemma CanonicalNarrativeCaptured()
    ensures var s := CanonicalReply("Demeter", "Once");
            Exec(s, NarrativePattern) == Some(Span(32, 43, 49))
  {
    var s := CanonicalLiteral();
    NarrativeMatchAt32(s);
    NoEarlyNarrativeHeader(s);
    ExecFindsFirstHeader(s, NarrativePattern, Span(32, 43, 49));
  }

  /** A match at the first occurrence of the header, whose whitespace run
      is maximal and whose capture runs to the end, is the one `Exec` finds. */
  lemma ExecFindsFirstHeader(s: string, p: Pattern, w: Span)
    requires IsMatch(s, p, w)
    requires forall i :: 0 <= i < w.start ==> !HeaderAt(s, i, p.header)
    requires !IsWhitespace(s[w.capStart])
    requires w.capEnd == |s|
    ensures Exec(s, p) == Some(w)
  {
    var m := Exec(s, p).value;
    assert IsMatch(s, p, m) && Preferred(m, w);
    assert m.start == w.start;
    assert m.capStart == w.capStart;
  }

  /** The canonical reply is already trimmed, its deity field is the bare
      name and its narrative field is the story with its quote marks. */
  lemma CanonicalFields(defaultTitle: string)
    ensures var s := CanonicalReply("Demeter", "Once");
            && Trim(s) == s
            && DeityOf(s, defaultTitle) == "Demeter"
            && NarrativeOf(s) == "\"Once\""
  {
    var s := CanonicalReply("Demeter", "Once");
    CanonicalTrimmed();
    CanonicalSlices();
    CanonicalNamesTrimmed();
    CanonicalDeityCaptured();
    DeityIsTrimmedCapture(s, defaultTitle, Span(0, 23, 30), "Demeter");
    CanonicalNarrativeCaptured();
    NarrativeIsTrimmedCapture(s, Span(32, 43, 49), "\"Once\"");
  }

  /** The canonical reply holds the deity name and the quoted story at the
      spans the patterns capture. */
  lemma CanonicalSlices()
    ensures var s := CanonicalReply("Demeter", "Once");
            s[23..30] == "Demeter" && s[43..49] == "\"Once\""
  {
  }

  /** The canonical reply has no surrounding white space. */
  lemma CanonicalTrimmed()
    ensures var s := CanonicalReply("Demeter", "Once"); Trim(s) == s
  {
    var s := CanonicalReply("Demeter", "Once");
    assert NamePattern.header[0] == 'N';
    assert |s| == 49 && s[0] == 'N' && s[48] == '"';
    TrimOfTrimmed(s);
  }

  lemma CanonicalNamesTrimmed()
    ensures TrimmedEdges("Demeter") && TrimmedEdges("\"Once\"")
  {
  }

  /** When the deity header matches at `m` and the capture is already
      trimmed, the deity field is that capture. */
  lemma DeityIsTrimmedCapture(s: string, defaultTitle: string, m: Span, t: string)
    requires Exec(s, NamePattern) == Some(m)
    requires s[m.capStart..m.capEnd] == t && TrimmedEdges(t)
    ensures DeityOf(s, defaultTitle) == t
  {
    TrimOfTrimmed(t);
  }

  /** Likewise for the narrative field. */
  lemma NarrativeIsTrimmedCapture(s: string, m: Span, t: string)
    requires Exec(s, NarrativePattern) == Some(m)
    requires m.capEnd == |s| && s[m.capStart..m.capEnd] == t && TrimmedEdges(t)
    ensures NarrativeOf(s) == t
  {
    assert s[m.capStart..] == t;
    TrimOfTrimmed(t);
  }

  /** The canonical `Demeter` / `Once` reply spelled out. */
  function CanonicalLiteral(): (s: string)
    ensures s == CanonicalReply("Demeter", "Once")
  {
    "Name of Greek/Goddess: Demeter\n\nNarrative:\n\"Once\""
  }

  /** The narrative header and the quoted story sit at 32 and 43. */
  lemma NarrativeMatchAt32(s: string)
    requires s == "Name of Greek/Goddess: Demeter\n\nNarrative:\n\"Once\""
    ensures |s| == 49 && !IsWhitespace(s[43])
    ensures IsMatch(s, NarrativePattern, Span(32, 43, 49))
  {
    var h := NarrativePattern.header;
    assert |h| == 10;
    assert forall k :: 0 <= k < |h| ==> s[32 + k] == h[k];
    assert s[42] == '\n';
  }

  /** The only colon before position 41 is the one ending the deity header. */
  lemma NoEarlyNarrativeHeader(s: string)
    requires s == "Name of Greek/Goddess: Demeter\n\nNarrative:\n\"Once\""
    ensures forall i :: 0 <= i < 32 ==> !HeaderAt(s, i, NarrativePattern.header)
  {
    var h := NarrativePattern.header;
    forall i | 0 <= i < 32
      ensures !HeaderAt(s, i, h)
    {
      if i == 12 {
        assert s[12] == 'k';
        assert !SameIgnoringCase(s[12], h[0]);
      } else {
        assert s[i + 9] != ':';
        assert !SameIgnoringCase(s[i + 9], h[9]);
      }
    }
  }
}

=== FILE: ordering.dfy ===
/** `ORDER BY` for the listing queries. A query's result is the set of
    selected row ids arranged so that the sort key never increases along the
    listing. SQL leaves the order of rows with equal keys open; this model
    settles such ties by the smaller id, and its contracts promise only what
    the query promises. */
module Ordering {

  /** A two-column sort key, compared lexicographically. */
  datatype Rank = Rank(major: int, minor: int)

  /** `a` may be listed before `b` in a descending listing. */
  predicate AtLeast(a: Rank, b: Rank) {
    a.major > b.major || (a.major == b.major && a.minor >= b.minor)
  }

  /** `m` is the row of `keys` a descending listing emits first. */
  predicate IsFirst(m: int, keys: set<int>, ranks: map<int, Rank>)
    requires keys <= ranks.Keys
  {
    && m in keys
    && forall k :: k in keys ==> AtLeast(ranks[m], ranks[k]) && (ranks[m] == ranks[k] ==> m <= k)
  }

  /** Some element of a non-empty set. */
  lemma Pick(keys: set<int>) returns (x: int)
    requires keys != {}
    ensures x in keys
  {
    if forall y :: y !in keys {
      assert false;
    }
    x :| x in keys;
  }

  lemma {:induction false} FirstExists(keys: set<int>, ranks: map<int, Rank>)
    requires keys <= ranks.Keys && keys != {}
    ensures exists m :: IsFirst(m, keys, ranks)
    decreases |keys|
  {
    var x := Pick(keys);
    if keys != {x} {
      var rest := keys - {x};
      FirstExists(rest, ranks);
      var y :| IsFirst(y, rest, ranks);
      if AtLeast(ranks[x], ranks[y]) && (ranks[x] == ranks[y] ==> x <= y) {
        assert IsFirst(x, keys, ranks);
      } else {
        assert IsFirst(y, keys, ranks);
      }
    } else {
      assert IsFirst(x, keys, ranks);
    }
  }

  /** The rows `keys`, each once, in descending order of their ranks. */
  function ByRankDesc(keys: set<int>, ranks: map<int, Rank>): (ids: seq<int>)
    requires keys <= ranks.Keys
    ensures |ids| == |keys|
    ensures forall i :: 0 <= i < |ids| ==> ids[i] in keys
    ensures forall k :: k in keys ==> k in ids
    ensures forall i, j :: 0 <= i < j < |ids| ==> ids[i] != ids[j]
    ensures forall i, j :: 0 <= i < j < |ids| ==> AtLeast(ranks[ids[i]], ranks[ids[j]])
    decreases |keys|
  {
    if keys == {} then []
    else
      FirstExists(keys, ranks);
      var m :| IsFirst(m, keys, ranks);
      [m] + ByRankDesc(keys - {m}, ranks)
  }
}

=== FILE: tables.dfy ===
/** What the three tables share: the key and clock types, and the `SELECT`
    of some columns of a list of rows picked by id. */
module Tables {

  /** `user_id`, the owner column of every table. */
  type UserId = int

  /** A `TIMESTAMP` column such as `created_at`. */
  type Timestamp = int

  /** The rows `ids` of `table`, each narrowed to the columns `row` selects,
      in the order of `ids`. */
  function Project<K, V, R>(ids: seq<K>, table: map<K, V>, row: (K, V) -> R): (rows: seq<R>)
    requires forall i :: 0 <= i < |ids| ==> ids[i] in table
    ensures |rows| == |ids|
    ensures forall i :: 0 <= i < |ids| ==> rows[i] == row(ids[i], table[ids[i]])
  {
    if ids == [] then [] else [row(ids[0], table[ids[0]])] + Project(ids[1..], table, row)
  }
}

=== FILE: wrappers.dfy ===
/** Optional values: `None` stands for JavaScript's `undefined`/`null`, for a
    missing row, or for a foreign call that did not produce a value. */
module Wrappers {

  datatype Option<+T> = None | Some(value: T)
}
